=== FILE: README.md ===
# InfraGuard AI incident core, in Dafny

InfraGuard AI collects three kinds of incident data: IAM policies from AWS, Terraform pull-request diffs from GitHub, and synthetic Kafka consumer logs. Each producer turns its input into an analysis, a list of findings plus a list of suggestions. The decision engine's `process_incident` then scores each analysis and returns the score, next to the action text the language model proposes, in its result dictionary; it also writes the score to the log (decision_engine.py:84-90). The engine also defines a three-tier classifier, `decide_action`, but nothing in the repository calls it: the action that main.py:24 compares and app.py saves is the model's text (decision_engine.py:69-70). No caller reads `risk_score` either, and the `Incident` table has no column for it (app.py:24-32), so the `IncidentRisk` results describe a value that only reaches the log line.

Most of the repository is glue around a language model, cloud APIs and a web UI. This project models the deterministic core underneath:

- **Risk scoring and tiering** (`DecisionEngine`, decision.dfy):
  - the static `risk_scores` table, looked up case-insensitively with 0 as the default;
  - the three-tier threshold classifier `decide_action`, which is defined but never called;
  - the keyword severity heuristic inside `process_incident`;
  - the risk score that `process_incident` returns and logs.
- **Kafka lag** (`KafkaExplainer`, kafka.dfy):
  - the synthetic log generator, with its random draws taken as an input sequence;
  - the clamped lag sum, as a loop with its reference definition;
  - the strict-threshold findings;
  - the canned suggestion when no high lag is reported.
- **Terraform diff summary** (`InfraSummarizer`, infra.dfy):
  - counting `+` and `-` lines after `strip()`;
  - the four findings of one diff, and the diff text the model's prompt carries;
  - the failure on a file whose patch GitHub left out;
  - the fallback to the sample diff when the fetch fails;
  - the "no changes" record for an empty fetch;
  - truncation to two count lines plus a marker line.
- **IAM statement filter** (`IamAnalyzer`, iam.dfy):
  - flagging `Allow` statements whose `Resource` holds `*`, with Python's two meanings of `in`;
  - the `KeyError` raised by a statement without `Effect`;
  - the canned "no issues" record and the fallback sample policy.
- **Severity of each producer's output** (`IncidentRisk`, risk.dfy): the heuristic and the lookup applied to the exact findings each producer can emit.

`Text` (text.dfy) models the Python string built-ins the core relies on:

- `str.lower` (ASCII letters);
- `str.strip` (Python's whitespace set);
- `startswith`, and substring `in`;
- `split('\n')` and `join`;
- `str(int)`.

`Results` (results.dfy) holds `Option` and `Result`, and `Analyses` (analyses.dfy) holds the findings/suggestions record.

External values are plain inputs:

- A fetch result is an `Option` (`None` is a failed fetch). A Terraform fetch holds one `Option<string>` patch per file, with `None` where GitHub left the patch out.
- Text generated by the language model is a `string` parameter. For the Terraform summary it is a function from the diff text of the prompt to the reply, because the claims about later diffs depend on what the prompt holds.
- The `random.randint(0, 20)` draws are a `seq<int>`, one draw per log entry.

What the proofs show about the system as a whole:

- Severity is never "medium". So `process_incident` only ever returns and logs the low or the high weight of a type. Fed one of those scores, `decide_action` would never choose "Escalate to team"; the program itself never calls it.
- A Terraform incident always scores 1. Its findings never mention "risk" or "high", because the diff text is cut off before scoring.
- An IAM incident scores 5 exactly when some statement is an `Allow` with a wildcard resource.
- A Kafka incident scores 6 exactly when the total lag passes 100. With at most five entries it cannot pass 100.
- Only the first diff of a pull request reaches the summary's findings, but every diff's text reaches the model's prompt. A file without a patch makes the whole summary fail.

The severity heuristic (decision_engine.py:73) tests each finding on its own, so a keyword split across two findings does not count.

## Model

| member | source | states |
|---|---|---|
| DecisionEngine.ScoreRisk | decision_engine.py:18-30 | every score the table can produce lies between 0 and 6 |
| DecisionEngine.ScoreRiskMatchesTable | decision_engine.py:18-30 | for every pair of strings, the nested-map lookup equals an independent enumerated table: a recognised (type, severity) pair, after lower-casing, scores its weight (1/3/5, one more for kafka) and anything else scores 0 |
| DecisionEngine.ConfiguredScores | decision_engine.py:18-26 | all nine configured entries: iam 1/3/5, kafka 2/4/6, infra 1/3/5 |
| DecisionEngine.ScoreRiskIgnoresCase | decision_engine.py:30 | case does not matter in either argument; "IAM"/"High" scores 5 like "iam"/"high" |
| DecisionEngine.UnknownScoresZero | decision_engine.py:30 | an unknown type, or an unknown severity for a known type, scores 0 |
| DecisionEngine.DecideAction | decision_engine.py:32-38 | execute exactly when the score is at least 5, escalate exactly when it is 3 or 4, suggest exactly below 3; both boundaries inclusive |
| DecisionEngine.DecideActionMonotone | decision_engine.py:32-38 | a higher score never leads to a lower tier |
| DecisionEngine.ActionLabelInjective | decision_engine.py:35-38 | the three returned labels are distinct, so the label identifies the tier |
| DecisionEngine.HighOpeningMentionsRisk | decision_engine.py:73 | a finding that opens with "High" triggers the high severity |
| DecisionEngine.QuietFinding | decision_engine.py:73 | a finding lacking 'h' and 'k' in both cases, or lacking 'i' in both cases, cannot trigger the high severity |
| DecisionEngine.FindingsSeverity | decision_engine.py:73 | severity is high exactly when some single finding, lower-cased, contains "risk" or "high"; it is never medium, and empty findings give low |
| DecisionEngine.ScoreAtSeverity | decision_engine.py:73-74 | looking a severity up by name yields the enumerated weight of the recognised type, or 0 |
| DecisionEngine.ProcessIncident | decision_engine.py:69-90 | the returned action is the model's text stripped of surrounding whitespace; the validation is passed through; the risk score is the weight of the recognised type at the heuristic severity, or 0 for an unknown type |
| DecisionEngine.QuietScore | decision_engine.py:73-74 | findings none of which mention risk score the low weight of their type |
| DecisionEngine.RiskyScore | decision_engine.py:73-74 | one finding that mentions risk lifts the score to the high weight |
| DecisionEngine.ProcessedScoreTiers | decision_engine.py:73-74 | for a recognised type the score is its low or its high weight, and it reaches the execute threshold exactly when some finding mentions risk |
| DecisionEngine.ProcessedScoreNeverEscalates | decision_engine.py:32-38 | no score `process_incident` returns and logs would make `decide_action` choose the escalate tier; the program never calls `decide_action`, so this describes the classifier, not a run |
| KafkaExplainer.GenerateSyntheticLogs | kafka_explainer.py:11-23 | one entry per draw; entry i sits at offset 10·i and its consumer trails it by draw i |
| KafkaExplainer.CalculateSyntheticLag | kafka_explainer.py:25-32 | the loop's total equals the reference sum of max(0, offset − consumer offset); it is never negative; empty logs give 0 |
| KafkaExplainer.LagSumAppend | kafka_explainer.py:27-31 | the total lag is additive over concatenation of log lists |
| KafkaExplainer.LagExample | kafka_explainer.py:28-31 | gaps 5, −3 and 10 total 15: the negative gap is skipped, not subtracted |
| KafkaExplainer.LagSumBound | kafka_explainer.py:28-31 | entries that trail by at most 20 total at most 20 per entry |
| KafkaExplainer.GeneratedLagBound | kafka_explainer.py:15-21 | with draws in 0..20, generated logs total at most 20·num_entries |
| KafkaExplainer.LagFinding | kafka_explainer.py:36 | the total-lag line is "Total consumer lag: ", the lag's decimal text and " messages."; a non-negative lag reads back from the line |
| KafkaExplainer.AnalyzeKafkaLag | kafka_explainer.py:34-39 | the total-lag line always comes first; the high-lag line follows exactly when the lag is strictly above the threshold |
| KafkaExplainer.SuggestKafkaResolution | kafka_explainer.py:41-55 | with no findings, or no "High lag" in the space-joined findings, the canned "Lag within acceptable limits."; otherwise the model's text |
| KafkaExplainer.LagFindingHasNoHighLag | kafka_explainer.py:36-46 | the total-lag line never contains "High lag", whatever the lag |
| KafkaExplainer.HighLagLineIsSeen | kafka_explainer.py:37-46 | once the high-lag line is present, the joined findings contain "High lag" |
| KafkaExplainer.SuggestionFollowsThreshold | kafka_explainer.py:34-47 | the model is consulted exactly when the lag exceeds the threshold; otherwise the canned line is returned |
| KafkaExplainer.AnalyzeKafka | kafka_explainer.py:57-68 | the total lag of the generated logs is always reported first; the high-lag line follows, and the model's text replaces the canned line, exactly when that total passes 100 |
| KafkaExplainer.SmallBatchNeedsNoModel | kafka_explainer.py:57-68 | with at most five entries and draws in 0..20 there is one finding and the canned suggestion |
| KafkaExplainer.SingleEntryScenario | kafka_explainer.py:11-39 | one entry trailing by 20 gives lag 20, reported as "Total consumer lag: 20 messages.", with the canned suggestion |
| InfraSummarizer.CountMarked | infra_summarizer.py:57-59 | a count of lines is never more than the number of lines |
| InfraSummarizer.MarkedIff | infra_summarizer.py:58-59 | a line is counted under a mark exactly when its first non-whitespace character is that mark |
| InfraSummarizer.UnmarkedLines | infra_summarizer.py:58-59 | whitespace-only and context lines are counted under neither mark |
| InfraSummarizer.BlankLineHasNoHead | infra_summarizer.py:58-59 | a whitespace-only line has no first non-whitespace character |
| InfraSummarizer.CountsDisjoint | infra_summarizer.py:57-59 | no line is both added and removed, so the two counts together never exceed the number of lines |
| InfraSummarizer.CountMarkedAppend | infra_summarizer.py:58-59 | counts are additive over concatenation of line lists |
| InfraSummarizer.CountUniformLines | infra_summarizer.py:58-59 | lines that all open with one character are all counted under it and under no other mark |
| InfraSummarizer.AnalyzeDiff | infra_summarizer.py:52-66 | exactly four findings: the added count, the removed count, "Diff content:" and the diff text itself |
| InfraSummarizer.CountLineReadsBack | infra_summarizer.py:61-62 | a count line is the kind and a colon, the count's decimal text and " lines."; the count reads back from the line |
| InfraSummarizer.AllDiffFindings | infra_summarizer.py:98-100 | the loop fails exactly when some patch is absent; otherwise four findings per diff, the first four being those of the first diff |
| InfraSummarizer.DiffFindingAt | infra_summarizer.py:98-100 | finding j of diff k sits at position 4·k + j of the collected findings |
| InfraSummarizer.SummarizeInfra | infra_summarizer.py:85-105 | a failed fetch reads as the sample diff; the summary fails exactly when some fetched patch is absent; an empty fetched list gives the canned "no changes" record; otherwise the findings are the first diff's two count lines plus the marker line, and the suggestion is the model's reply to the diff text built from every diff's findings |
| InfraSummarizer.LaterDiffsIgnored | infra_summarizer.py:98-103 | diffs after the first do not change the findings; they can only make the summary fail, by an absent patch |
| InfraSummarizer.PromptCarriesLaterDiffs | infra_summarizer.py:98-101 | the prompt's diff text is the first diff's header and text followed by every finding of the later diffs, so later diffs do reach the model |
| InfraSummarizer.PromptCarriesEveryDiff | infra_summarizer.py:73 | the text of every fetched diff occurs in the prompt's diff text |
| InfraSummarizer.SampleDiffSplits | infra_summarizer.py:19-34 | the sample diff splits on line breaks into its sixteen lines, the first and last empty |
| InfraSummarizer.CountTwoBlocks | infra_summarizer.py:57-59 | a block of added lines and a block of removed lines between two empty lines count as the sizes of the blocks |
| InfraSummarizer.SampleDiffCounts | infra_summarizer.py:19-34 | the sample has seven added and seven removed lines |
| InfraSummarizer.SampleShapedCounts | infra_summarizer.py:57-62 | a diff whose lines are the sample's reports "Added: 7 lines." and "Removed: 7 lines." |
| InfraSummarizer.FallbackIsFixed | infra_summarizer.py:89-104 | every failed fetch yields the same findings: "Added: 7 lines.", "Removed: 7 lines." and the marker line |
| IamAnalyzer.AllStatementsAppend | iam_analyzer.py:53-54 | flattening policies is additive over concatenation of policy lists |
| IamAnalyzer.HasWildcard | iam_analyzer.py:55 | `'*' in` a string resource holds exactly when the character '*' occurs in it; for a list it is element membership; a missing resource has none |
| IamAnalyzer.StatementOrigin | iam_analyzer.py:53-54 | every statement scanned comes from one of the policies |
| IamAnalyzer.Flagged | iam_analyzer.py:55 | the flagged statements are statements of the input, each an Allow with a wildcard resource |
| IamAnalyzer.FlaggedComplete | iam_analyzer.py:55 | every Allow statement with a wildcard resource is flagged, so nothing is flagged exactly when no statement qualifies |
| IamAnalyzer.ScanStatements | iam_analyzer.py:52-57 | the scan fails with the missing-Effect error exactly when some statement lacks Effect; otherwise it has one finding per flagged statement, in order, never more than there are statements |
| IamAnalyzer.ScanOne | iam_analyzer.py:55-56 | one statement gives its finding when it is an Allow with a wildcard resource and nothing otherwise |
| IamAnalyzer.ScanAppend | iam_analyzer.py:53-56 | the scan of two statement lists fails when either part fails, and otherwise concatenates the two parts' findings |
| IamAnalyzer.StatementPosition | iam_analyzer.py:53-54 | statement j of policy p sits in the flattened list after every statement of the earlier policies |
| IamAnalyzer.MissingEffectAnywhere | iam_analyzer.py:55 | one statement without Effect, in any policy, makes the whole analysis fail |
| IamAnalyzer.AnalyzeIamPolicies | iam_analyzer.py:47-57 | the nested policy/statement loops return the reference scan of the flattened statements, including its error |
| IamAnalyzer.SuggestLeastPrivilege | iam_analyzer.py:59-65 | with no findings, the canned "No changes needed."; otherwise the model's text |
| IamAnalyzer.AnalyzeIam | iam_analyzer.py:90-103 | a failed fetch reads as the sample policy; a missing Effect is an error; with nothing flagged the canned "no issues" record; otherwise the scan's findings and the model's suggestion |
| IamAnalyzer.WildcardSemantics | iam_analyzer.py:55 | a string resource is flagged for a '*' anywhere in it; a list resource only for an element equal to "*"; a missing resource never |
| IamAnalyzer.NonAllowNeverFlagged | iam_analyzer.py:55 | statements whose Effect is not "Allow" produce no finding |
| IamAnalyzer.MissingResourceNeverFlagged | iam_analyzer.py:55 | a statement without Resource is never flagged |
| IamAnalyzer.PolicyWithoutStatements | iam_analyzer.py:54 | a policy without "Statement" contributes nothing, wherever it stands |
| IamAnalyzer.FallbackYieldsOneFinding | iam_analyzer.py:79-98 | every failed fetch yields exactly one finding, for the sample statement, and the model's suggestion |
| IamAnalyzer.EmptyFetchFindsNothing | iam_analyzer.py:94-102 | a successful fetch of no policies is not a failure: "No issues found." and "No changes needed." |
| IamAnalyzer.FindingsAreHighRisk | iam_analyzer.py:56 | every finding opens with "High risk: Over-permissive statement: " |
| IncidentRisk.QuietLagFinding | kafka_explainer.py:36 | the total-lag line never triggers the high severity |
| IncidentRisk.HighLagFindingMentionsRisk | kafka_explainer.py:38 | the high-lag line always triggers the high severity |
| IncidentRisk.KafkaRisk | decision_engine.py:73-74 | a Kafka incident scores 6 exactly when the total lag passes 100, and 2 otherwise |
| IncidentRisk.QuietCountLine | infra_summarizer.py:61-62 | an added or removed count line never triggers the high severity |
| IncidentRisk.InfraFindingsQuiet | infra_summarizer.py:93-104 | no finding of a Terraform summary that does not fail triggers the high severity |
| IncidentRisk.InfraRisk | decision_engine.py:73-74 | a Terraform incident whose summary does not fail always scores 1 |
| IncidentRisk.IamFindingMentions | iam_analyzer.py:56 | every IAM finding triggers the high severity |
| IncidentRisk.IamFindingsMention | iam_analyzer.py:98-101 | some IAM finding triggers the high severity exactly when some statement is flagged |
| IncidentRisk.IamRisk | decision_engine.py:73-74 | an IAM incident scores 5 when a statement is flagged and 1 when none is |
| IncidentRisk.IamRiskByStatements | decision_engine.py:73-74 | an IAM incident scores 5 exactly when some statement is an Allow with a wildcard resource, and 1 otherwise |
| Text.ToLower | decision_engine.py:30 | lower-cases ASCII capitals one character at a time, keeping every other character and the length |
| Text.StripSlice | infra_summarizer.py:58 | `strip()` is the stretch of the text left once the whitespace on both sides is cut off, and it neither starts nor ends with whitespace |
| Text.StripHead | infra_summarizer.py:58 | `strip()` leaves a non-empty string exactly when there is a non-whitespace character, and it then starts with the first such character |
| Text.JoinSplit | infra_summarizer.py:57 | joining the pieces of a split with the separator restores the text |
| Text.SplitJoin | infra_summarizer.py:57 | splitting a join of separator-free pieces gives the pieces back |
| Text.Split | infra_summarizer.py:57 | `split('\n')` gives at least one piece and no piece holds the separator |
| Text.ContainsSingle | iam_analyzer.py:55 | for a one-character word, `in` is membership of that character |
| Text.ContainsPrefix | kafka_explainer.py:46 | a string contains each of its prefixes |
| Text.ContainsRight | kafka_explainer.py:46 | a word found in the right part of a concatenation is found in the whole |
| Text.NotContainsForLackOfChar | kafka_explainer.py:46 | a string lacking one of a word's characters does not contain the word |
| Text.JoinContainsPart | infra_summarizer.py:73 | every piece of a join occurs in the joined text |
| Text.IntToString | kafka_explainer.py:36 | `str(i)` is digits for a non-negative value and a minus sign then digits otherwise; the digits read back as the value |
| Text.ParseNatToString | infra_summarizer.py:61-62 | the decimal text of a count reads back as the count |

## Left out

- The language-model calls are left out: `generate_content` and the prompts built for it (decision_engine.py:40-53 and 61-69, kafka_explainer.py:48-55, infra_summarizer.py:74-83, iam_analyzer.py:66-76). Their output is nondeterministic text, which enters the model as a string parameter. The exception is the diff text of the Terraform prompt (infra_summarizer.py:73): it is modelled, and the reply is a function of it.
- `validate_decision` is left out for the same reason; its text is the `validationText` parameter of `ProcessIncident`.
- The LangChain conversation memory and `simulate_pr_review` (decision_engine.py:15, 57-58, 77-81; infra_summarizer.py:16, 107-139) are left out. They only store and replay model text.
- The AWS and GitHub fetchers (iam_analyzer.py:10-45, infra_summarizer.py:36-50) are network I/O. Their result is the `Option` input, with `None` for a failed fetch. The `.tf` file-name filter (infra_summarizer.py:46) is part of the fetch; the model receives the patches it keeps.
- Logging, `print` and the API-key configuration are side effects only, so they are left out.
- The Kafka generator's timestamps and partitions are left out: nothing downstream reads them.
- action_generator.py, main.py and app.py are not part of this model. They hold webhook plumbing, a fixed orchestration loop that branches on model text, and the web UI with its database.
- GenerateSyntheticLogs: `num_entries` is the length of the draw sequence, so the default of 10 entries is not singled out.
- Text.ToLower: lower-cases ASCII letters only. Python's `str.lower` also maps non-ASCII capitals, for instance the Kelvin sign to 'k'. No finding the core produces contains one. Every call of `process_incident` passes a literal incident type ("iam", "kafka" or "infra", at main.py:10-12 and app.py:100, 132, 169), so `score_risk` never sees one either.
- IamAnalyzer.FindingText: `json.dumps` is not modelled. Each statement carries its serialised text as a field, and the sample statement's text is written out exactly.
- IamAnalyzer.AnalyzeIam: a "Statement" given as a single object rather than a list is not modelled. Nor are `Effect` and `Resource` values other than strings and lists of strings. In the source those reach Python's `in` and `==` with other types.
- IamAnalyzer.AnalyzeIamPolicies: only a missing `Effect` is modelled as an error. Other exceptions raised by malformed policy documents are not.
- DecisionEngine.ProcessIncident: the returned action is a function of the model's text only. Which text the model returns is not modelled.
- KafkaExplainer.SuggestKafkaResolution and IamAnalyzer.SuggestLeastPrivilege: the model's reply is a fixed string parameter rather than a function of the prompt. No claim here compares replies to different findings.

=== FILE: analyses.dfy ===
/** The record every finding producer returns: the `{"findings": [...],
    "suggestions": [...]}` dictionary of the IAM, Kafka and Terraform analysers. */
module Analyses {

  datatype Analysis = Analysis(findings: seq<string>, suggestions: seq<string>)
}

=== FILE: decision.dfy ===
/** The deterministic part of the decision engine: the static risk table,
    the three-tier threshold classifier, the keyword severity heuristic and
    the risk score that `process_incident` returns and logs. The action text
    and the validation text come from a language model and are plain inputs
    here. */
module DecisionEngine {

  import opened Text
  import opened Results
  import opened Analyses

  /** The `risk_scores` part of the configuration, keyed by lower-case
      incident type and then by lower-case severity. */
  const RiskScores: map<string, map<string, int>> :=
    map[
      "iam"   := map["low" := 1, "medium" := 3, "high" := 5],
      "kafka" := map["low" := 2, "medium" := 4, "high" := 6],
      "infra" := map["low" := 1, "medium" := 3, "high" := 5]
    ]

  const ExecuteThreshold := 5
  const EscalateThreshold := 3

  /** `score_risk`: both keys are lower-cased, and a missing type or a
      missing severity scores 0. */
  function ScoreRisk(incidentType: string, severity: string): (r: int)
    ensures 0 <= r <= 6
  {
    var t := ToLower(incidentType);
    var s := ToLower(severity);
    if t in RiskScores && s in RiskScores[t] then RiskScores[t][s] else 0
  }

  // An independent, enumerated reading of the same table.

  datatype IncidentType = Iam | Kafka | Infra
  datatype Severity = Low | Medium | High

  function TypeName(t: IncidentType): string {
    match t
    case Iam => "iam"
    case Kafka => "kafka"
    case Infra => "infra"
  }

  function SeverityName(s: Severity): string {
    match s
    case Low => "low"
    case Medium => "medium"
    case High => "high"
  }

  function ParseIncidentType(s: string): (r: Option<IncidentType>)
    ensures r.Some? ==> TypeName(r.value) == s
  {
    if s == "iam" then Some(Iam)
    else if s == "kafka" then Some(Kafka)
    else if s == "infra" then Some(Infra)
    else None
  }

  function ParseSeverity(s: string): (r: Option<Severity>)
    ensures r.Some? ==> SeverityName(r.value) == s
  {
    if s == "low" then Some(Low)
    else if s == "medium" then Some(Medium)
    else if s == "high" then Some(High)
    else None
  }

  /** The weight of each (type, severity) pair: one per tier of severity,
      with Kafka one point above the other two types. */
  function Weight(t: IncidentType, s: Severity): int {
    var base := match s case Low => 1 case Medium => 3 case High => 5;
    if t == Kafka then base + 1 else base
  }

  /** `score_risk` agrees with the enumerated table on every input: a
      recognised pair (after lower-casing) scores its weight and anything
      else scores 0. */
  lemma ScoreRiskMatchesTable(incidentType: string, severity: string)
    ensures ScoreRisk(incidentType, severity) ==
      match (ParseIncidentType(ToLower(incidentType)), ParseSeverity(ToLower(severity)))
      case (Some(t), Some(s)) => Weight(t, s)
      case _ => 0
  {
    var t := ToLower(incidentType);
    var s := ToLower(severity);
    if t in RiskScores {
      assert t == "iam" || t == "kafka" || t == "infra";
    }
  }

  /** Every configured entry, written out. */
  lemma ConfiguredScores()
    ensures ScoreRisk("iam", "low") == 1 && ScoreRisk("iam", "medium") == 3 && ScoreRisk("iam", "high") == 5
    ensures ScoreRisk("kafka", "low") == 2 && ScoreRisk("kafka", "medium") == 4 && ScoreRisk("kafka", "high") == 6
    ensures ScoreRisk("infra", "low") == 1 && ScoreRisk("infra", "medium") == 3 && ScoreRisk("infra", "high") == 5
  {
    ToLowerOfLower("iam");
    ToLowerOfLower("kafka");
    ToLowerOfLower("infra");
    ToLowerOfLower("low");
    ToLowerOfLower("medium");
    ToLowerOfLower("high");
  }

  /** Case does not matter in either argument. */
  lemma ScoreRiskIgnoresCase(incidentType: string, severity: string)
    ensures ScoreRisk(incidentType, severity) == ScoreRisk(ToLower(incidentType), ToLower(severity))
    ensures ScoreRisk("IAM", "High") == ScoreRisk("iam", "high") == 5
  {
    ToLowerIdempotent(incidentType);
    ToLowerIdempotent(severity);
    assert ToLower("IAM") == "iam" by {
      assert ToLower("IAM")[0] == 'i' && ToLower("IAM")[1] == 'a' && ToLower("IAM")[2] == 'm';
    }
    assert ToLower("High") == "high" by {
      assert ToLower("High")[0] == 'h';
      ToLowerOfLower("igh");
      ToLowerAppend("H", "igh");
      assert "High" == "H" + "igh";
    }
    ConfiguredScores();
  }

  /** An unknown type, or an unknown severity for a known type, scores 0. */
  lemma UnknownScoresZero(incidentType: string, severity: string)
    requires ParseIncidentType(ToLower(incidentType)).None? || ParseSeverity(ToLower(severity)).None?
    ensures ScoreRisk(incidentType, severity) == 0
  {
    ScoreRiskMatchesTable(incidentType, severity);
  }

  /** The three labels `decide_action` can return. */
  datatype Action = Suggest | Escalate | Execute

  function ActionLabel(a: Action): string {
    match a
    case Suggest => "Suggest action"
    case Escalate => "Escalate to team"
    case Execute => "Execute autonomous action"
  }

  function Rank(a: Action): nat {
    match a
    case Suggest => 0
    case Escalate => 1
    case Execute => 2
  }

  /** `decide_action`: both thresholds are inclusive. */
  function DecideAction(riskScore: int): (a: Action)
    ensures a == Execute <==> riskScore >= ExecuteThreshold
    ensures a == Escalate <==> EscalateThreshold <= riskScore < ExecuteThreshold
    ensures a == Suggest <==> riskScore < EscalateThreshold
  {
    if riskScore >= ExecuteThreshold then Execute
    else if riskScore >= EscalateThreshold then Escalate
    else Suggest
  }

  /** Raising the score never moves the decision to a lower tier. */
  lemma DecideActionMonotone(s1: int, s2: int)
    requires s1 <= s2
    ensures Rank(DecideAction(s1)) <= Rank(DecideAction(s2))
  {
  }

  /** The three labels are distinct, so the label determines the tier. */
  lemma ActionLabelInjective(a: Action, b: Action)
    requires ActionLabel(a) == ActionLabel(b)
    ensures a == b
  {
  }

  /** One finding triggers the high severity when, lower-cased, it
      mentions "risk" or "high". */
  predicate MentionsRisk(finding: string) {
    Contains(ToLower(finding), "risk") || Contains(ToLower(finding), "high")
  }

  /** A finding that opens with "High" mentions risk. */
  lemma HighOpeningMentionsRisk(finding: string)
    requires OpensWithHigh(finding)
    ensures MentionsRisk(finding)
  {
    LowerOfHigh(finding);
    ContainsPrefix(ToLower(finding), "high");
  }

  /** A finding lacking 'h' and 'k' in both cases, or lacking 'i' in both
      cases, does not mention risk: each keyword needs one of those letters. */
  lemma QuietFinding(finding: string)
    requires Avoids(finding, {'h', 'H', 'k', 'K'}) || Avoids(finding, {'i', 'I'})
    ensures !MentionsRisk(finding)
  {
    if Avoids(finding, {'h', 'H', 'k', 'K'}) {
      assert 'h' !in finding && UpperChar('h') !in finding;
      assert 'k' !in finding && UpperChar('k') !in finding;
      LowerAbsent(finding, 'h');
      LowerAbsent(finding, 'k');
      NotContainsForLackOfChar(ToLower(finding), "high", 'h');
      NotContainsForLackOfChar(ToLower(finding), "risk", 'k');
    } else {
      assert 'i' !in finding && UpperChar('i') !in finding;
      LowerAbsent(finding, 'i');
      NotContainsForLackOfChar(ToLower(finding), "high", 'i');
      NotContainsForLackOfChar(ToLower(finding), "risk", 'i');
    }
  }

  /** The severity expression of `process_incident`: "high" when any single
      finding mentions risk, otherwise "low"; never "medium". */
  function FindingsSeverity(findings: seq<string>): (r: Severity)
    ensures r != Medium
    ensures r == High <==> exists i :: 0 <= i < |findings| && MentionsRisk(findings[i])
  {
    if |findings| == 0 then Low
    else if MentionsRisk(findings[0]) then High
    else
      var rest := FindingsSeverity(findings[1..]);
      assert forall i :: 1 <= i < |findings| ==> findings[i] == findings[1..][i - 1];
      rest
  }

  /** The part of `process_incident`'s result that does not come from the
      language model. */
  datatype Decision = Decision(riskScore: int, action: string, validation: string)

  /** `process_incident` with the model's decision text and validation text
      as inputs: the action is that text trimmed, and the risk score is the
      weight of the recognised type at the heuristic severity, or 0 for an
      unknown type. */
  function ProcessIncident(incidentType: string, analysis: Analysis,
                           decisionText: string, validationText: string): (d: Decision)
    ensures d.action == Strip(decisionText) && d.validation == validationText
    ensures d.riskScore == match ParseIncidentType(ToLower(incidentType))
      case Some(t) => Weight(t, FindingsSeverity(analysis.findings))
      case None => 0
  {
    var severity := FindingsSeverity(analysis.findings);
    ScoreAtSeverity(incidentType, severity);
    Decision(ScoreRisk(incidentType, SeverityName(severity)), Strip(decisionText), validationText)
  }

  /** The severity names are lower-case already, so each reads back as itself. */
  lemma SeverityNameParses(s: Severity)
    ensures ParseSeverity(ToLower(SeverityName(s))) == Some(s)
  {
    ToLowerOfLower(SeverityName(s));
  }

  /** Looking up a severity by its name gives the enumerated weight. */
  lemma ScoreAtSeverity(incidentType: string, s: Severity)
    ensures ScoreRisk(incidentType, SeverityName(s)) == match ParseIncidentType(ToLower(incidentType))
      case Some(t) => Weight(t, s)
      case None => 0
  {
    ScoreRiskMatchesTable(incidentType, SeverityName(s));
    SeverityNameParses(s);
  }

  /** The type names are lower-case already, so each reads back as itself. */
  lemma TypeNameParses(t: IncidentType)
    ensures ParseIncidentType(ToLower(TypeName(t))) == Some(t)
  {
    ToLowerOfLower(TypeName(t));
  }

  /** Findings none of which mention risk score the low weight of the type. */
  lemma QuietScore(t: IncidentType, analysis: Analysis, decisionText: string, validationText: string)
    requires forall i :: 0 <= i < |analysis.findings| ==> !MentionsRisk(analysis.findings[i])
    ensures ProcessIncident(TypeName(t), analysis, decisionText, validationText).riskScore == Weight(t, Low)
  {
    TypeNameParses(t);
    assert FindingsSeverity(analysis.findings) == Low;
  }

  /** One finding that mentions risk lifts the score to the high weight. */
  lemma RiskyScore(t: IncidentType, analysis: Analysis, decisionText: string, validationText: string, i: nat)
    requires i < |analysis.findings| && MentionsRisk(analysis.findings[i])
    ensures ProcessIncident(TypeName(t), analysis, decisionText, validationText).riskScore == Weight(t, High)
  {
    TypeNameParses(t);
    assert FindingsSeverity(analysis.findings) == High;
  }

  /** For a recognised type only the low and high weights occur, and the
      score reaches the execute threshold exactly when some finding
      mentions risk. */
  lemma ProcessedScoreTiers(incidentType: string, analysis: Analysis,
                            decisionText: string, validationText: string)
    requires ParseIncidentType(ToLower(incidentType)).Some?
    ensures var t := ParseIncidentType(ToLower(incidentType)).value;
      var r := ProcessIncident(incidentType, analysis, decisionText, validationText).riskScore;
      && (r == Weight(t, Low) || r == Weight(t, High))
      && (r >= ExecuteThreshold <==>
            exists i :: 0 <= i < |analysis.findings| && MentionsRisk(analysis.findings[i]))
  {
    var t := ParseIncidentType(ToLower(incidentType)).value;
    var severity := FindingsSeverity(analysis.findings);
    assert severity == Low || severity == High;
    assert Weight(t, Low) < ExecuteThreshold <= Weight(t, High);
  }

  /** With the scores `process_incident` can produce, the threshold
      classifier never chooses the middle tier. */
  lemma ProcessedScoreNeverEscalates(incidentType: string, analysis: Analysis,
                                     decisionText: string, validationText: string)
    ensures DecideAction(ProcessIncident(incidentType, analysis, decisionText, validationText).riskScore) != Escalate
  {
  }
}

=== FILE: iam.dfy ===
/** The IAM policy analyser: flagging over-permissive `Allow` statements,
    the "no changes" short-circuit of the suggestion step, the fallback
    sample policy, and the shaping of the result. The AWS fetch is an
    optional input (`None` when it failed) and the model's text is a string
    input. */
module IamAnalyzer {

  import opened Text
  import opened Results
  import opened Analyses

  /** A statement's `Resource`: one string, or a list of strings. */
  datatype Resource = Single(text: string) | Many(items: seq<string>)

  /** One policy statement. `effect` and `resource` are `None` when the key
      is absent; `json` is the statement's `json.dumps` text, which the
      finding quotes verbatim. */
  datatype Statement = Statement(effect: Option<string>, resource: Option<Resource>, json: string)

  /** A policy document; `statements` is `None` when it has no "Statement" key. */
  datatype Policy = Policy(statements: Option<seq<Statement>>)

  /** Reading `statement['Effect']` when the key is absent raises, and
      nothing in the analyser catches it. */
  datatype IamError = MissingEffect

  const FindingPrefix := "High risk: Over-permissive statement: "
  const NoIssuesFound := "No issues found."
  const NoChangesNeeded := "No changes needed."

  /** The "no issues" line has neither 'h' nor 'k' in either case. */
  lemma NoIssuesLetters()
    ensures Avoids(NoIssuesFound, {'h', 'H', 'k', 'K'})
  {
  }

  /** The fallback policy: one statement allowing `s3:*` on every resource. */
  const SampleIamPolicy := Policy(Some([
    Statement(Some("Allow"), Some(Single("*")),
              "{\"Effect\": \"Allow\", \"Action\": \"s3:*\", \"Resource\": \"*\"}")
  ]))

  /** Python's `'*' in statement.get('Resource', [])`: a substring test on a
      string, an element test on a list, and false for the missing default. */
  predicate HasWildcard(resource: Option<Resource>): (b: bool)
    ensures resource.None? ==> !b
    ensures resource.Some? && resource.value.Single? ==> (b <==> '*' in resource.value.text)
    ensures resource.Some? && resource.value.Many? ==> (b <==> "*" in resource.value.items)
  {
    match resource
    case None => false
    case Some(Single(text)) => ContainsSingle(text, '*'); Contains(text, "*")
    case Some(Many(items)) => "*" in items
  }

  /** The flag condition, for a statement whose `Effect` is present. */
  predicate IsOverPermissive(st: Statement)
    requires st.effect.Some?
  {
    st.effect.value == "Allow" && HasWildcard(st.resource)
  }

  function FindingText(st: Statement): string {
    FindingPrefix + st.json
  }

  /** `policy.get('Statement', [])`. */
  function StatementsOf(p: Policy): seq<Statement> {
    match p.statements
    case None => []
    case Some(sts) => sts
  }

  /** Every statement of every policy, in policy-then-statement order. */
  function AllStatements(policies: seq<Policy>): (sts: seq<Statement>)
    ensures |policies| > 0 ==> |sts| >= |StatementsOf(policies[0])|
  {
    if |policies| == 0 then [] else StatementsOf(policies[0]) + AllStatements(policies[1..])
  }

  /** Every statement of the flattened list comes from some policy. */
  lemma {:induction false} StatementOrigin(policies: seq<Policy>, k: nat)
    requires k < |AllStatements(policies)|
    ensures exists p :: 0 <= p < |policies| && AllStatements(policies)[k] in StatementsOf(policies[p])
  {
    var first := StatementsOf(policies[0]);
    if k < |first| {
      assert AllStatements(policies)[k] == first[k];
    } else {
      var rest := AllStatements(policies[1..]);
      assert AllStatements(policies) == first + rest;
      assert AllStatements(policies)[k] == rest[k - |first|];
      StatementOrigin(policies[1..], k - |first|);
      var q :| 0 <= q < |policies| - 1 && rest[k - |first|] in StatementsOf(policies[1..][q]);
      assert policies[1..][q] == policies[q + 1];
    }
  }

  lemma {:induction false} AllStatementsAppend(a: seq<Policy>, b: seq<Policy>)
    ensures AllStatements(a + b) == AllStatements(a) + AllStatements(b)
  {
    if |a| > 0 {
      assert (a + b)[1..] == a[1..] + b;
      AllStatementsAppend(a[1..], b);
    } else {
      assert a + b == b;
    }
  }

  /** Some statement lacks its `Effect` key. */
  predicate SomeEffectMissing(sts: seq<Statement>) {
    exists i :: 0 <= i < |sts| && sts[i].effect.None?
  }

  /** The statements that are flagged, in order; only meaningful when every
      statement has an `Effect`. */
  function Flagged(sts: seq<Statement>): (r: seq<Statement>)
    requires !SomeEffectMissing(sts)
    ensures |r| <= |sts|
    ensures forall i :: 0 <= i < |r| ==> r[i] in sts && r[i].effect.Some? && IsOverPermissive(r[i])
  {
    if |sts| == 0 then []
    else
      assert sts[0].effect.Some?;
      assert !SomeEffectMissing(sts[1..]) by {
        assert forall i :: 0 <= i < |sts| - 1 ==> sts[1..][i] == sts[i + 1];
      }
      (if IsOverPermissive(sts[0]) then [sts[0]] else []) + Flagged(sts[1..])
  }

  /** Nothing over-permissive escapes the filter: every `Allow` statement
      with a wildcard resource is flagged, so nothing is flagged exactly
      when no statement qualifies. */
  lemma {:induction false} FlaggedComplete(sts: seq<Statement>)
    requires !SomeEffectMissing(sts)
    ensures forall i :: 0 <= i < |sts| && IsOverPermissive(sts[i]) ==> sts[i] in Flagged(sts)
    ensures |Flagged(sts)| == 0 <==> forall i :: 0 <= i < |sts| ==> !IsOverPermissive(sts[i])
  {
    if |sts| > 0 {
      var tail := sts[1..];
      assert forall i :: 0 <= i < |tail| ==> tail[i] == sts[i + 1];
      FlaggedComplete(tail);
      var head := if IsOverPermissive(sts[0]) then [sts[0]] else [];
      assert Flagged(sts) == head + Flagged(tail);
      forall i | 0 <= i < |sts| && IsOverPermissive(sts[i])
        ensures sts[i] in Flagged(sts)
      {
        if i > 0 {
          assert sts[i] == tail[i - 1];
        }
      }
    }
  }

  /** The reference scan: an error as soon as any statement lacks `Effect`,
      otherwise one finding per flagged statement, in order. */
  function ScanStatements(sts: seq<Statement>): (r: Result<seq<string>, IamError>)
    ensures r.Err? <==> SomeEffectMissing(sts)
    ensures r.Err? ==> r.error == MissingEffect
    ensures r.Ok? ==> |r.value| == |Flagged(sts)| <= |sts|
    ensures r.Ok? ==> forall i :: 0 <= i < |r.value| ==> r.value[i] == FindingText(Flagged(sts)[i])
  {
    if |sts| == 0 then Ok([])
    else if sts[0].effect.None? then Err(MissingEffect)
    else
      assert forall i :: 0 <= i < |sts| - 1 ==> sts[1..][i] == sts[i + 1];
      match ScanStatements(sts[1..])
      case Err(e) => Err(e)
      case Ok(rest) =>
        var head := if IsOverPermissive(sts[0]) then [FindingText(sts[0])] else [];
        assert Flagged(sts) == (if IsOverPermissive(sts[0]) then [sts[0]] else []) + Flagged(sts[1..]);
        Ok(head + rest)
  }

  lemma {:induction false} ScanAppend(a: seq<Statement>, b: seq<Statement>)
    ensures ScanStatements(a + b).Err? <==> ScanStatements(a).Err? || ScanStatements(b).Err?
    ensures ScanStatements(a + b).Ok? ==>
      ScanStatements(a + b).value == ScanStatements(a).value + ScanStatements(b).value
  {
    if |a| > 0 {
      var ab := a + b;
      assert ab[1..] == a[1..] + b;
      assert ab[0] == a[0];
      ScanAppend(a[1..], b);
      if a[0].effect.Some? {
        var head := if IsOverPermissive(a[0]) then [FindingText(a[0])] else [];
        var tail := ScanStatements(a[1..] + b);
        if tail.Ok? {
          assert ScanStatements(ab) == Ok(head + tail.value);
          assert ScanStatements(a) == Ok(head + ScanStatements(a[1..]).value);
          assert head + tail.value == head + ScanStatements(a[1..]).value + ScanStatements(b).value;
        }
      }
    } else {
      assert a + b == b;
    }
  }

  lemma AllStatementsStep(policies: seq<Policy>, p: nat)
    requires p < |policies|
    ensures AllStatements(policies[..p + 1]) == AllStatements(policies[..p]) + StatementsOf(policies[p])
  {
    assert policies[..p + 1] == policies[..p] + [policies[p]];
    AllStatementsAppend(policies[..p], [policies[p]]);
    assert AllStatements([policies[p]]) == StatementsOf(policies[p]) + AllStatements([]);
  }

  /** The flattened list, cut around policy `p`. */
  lemma AllStatementsAround(policies: seq<Policy>, p: nat)
    requires p < |policies|
    ensures AllStatements(policies) ==
      AllStatements(policies[..p]) + StatementsOf(policies[p]) + AllStatements(policies[p + 1..])
  {
    calc {
      AllStatements(policies);
      { assert policies == policies[..p + 1] + policies[p + 1..]; }
      AllStatements(policies[..p + 1] + policies[p + 1..]);
      { AllStatementsAppend(policies[..p + 1], policies[p + 1..]); }
      AllStatements(policies[..p + 1]) + AllStatements(policies[p + 1..]);
      { AllStatementsStep(policies, p); }
      AllStatements(policies[..p]) + StatementsOf(policies[p]) + AllStatements(policies[p + 1..]);
    }
  }

  /** Statement `j` of policy `p` sits in the flattened list after every
      statement of the earlier policies. */
  lemma StatementPosition(policies: seq<Policy>, p: nat, j: nat)
    requires p < |policies| && j < |StatementsOf(policies[p])|
    ensures var k := |AllStatements(policies[..p])| + j;
      k < |AllStatements(policies)| && AllStatements(policies)[k] == StatementsOf(policies[p])[j]
  {
    AllStatementsAround(policies, p);
    var before := AllStatements(policies[..p]);
    var here := StatementsOf(policies[p]);
    var after := AllStatements(policies[p + 1..]);
    assert (before + here + after)[|before| + j] == here[j];
  }

  /** A statement without `Effect` anywhere in the policies makes the whole scan fail. */
  lemma MissingEffectAnywhere(policies: seq<Policy>, p: nat, j: nat)
    requires p < |policies| && j < |StatementsOf(policies[p])|
    requires StatementsOf(policies[p])[j].effect.None?
    ensures ScanStatements(AllStatements(policies)) == Err(MissingEffect)
  {
    StatementPosition(policies, p, j);
    var k := |AllStatements(policies[..p])| + j;
    assert AllStatements(policies)[k].effect.None?;
  }

  /** The scan of a single statement. */
  lemma ScanOne(st: Statement)
    requires st.effect.Some?
    ensures ScanStatements([st]) == Ok(if IsOverPermissive(st) then [FindingText(st)] else [])
  {
    var head := if IsOverPermissive(st) then [FindingText(st)] else [];
    assert [st][1..] == [];
    assert ScanStatements([st][1..]) == Ok([]);
    assert head + [] == head;
  }

  /** One more statement with an `Effect` extends a successful scan by its
      own finding, if it is flagged. */
  lemma ScanStep(prefix: seq<Statement>, st: Statement, findings: seq<string>)
    requires ScanStatements(prefix) == Ok(findings)
    requires st.effect.Some?
    ensures ScanStatements(prefix + [st]) ==
      Ok(findings + if IsOverPermissive(st) then [FindingText(st)] else [])
  {
    ScanOne(st);
    ScanAppend(prefix, [st]);
  }

  /** One step of the inner loop of `analyze_iam_policies`: statement `j`
      of the current policy, which has an `Effect`, adds its finding when it
      is flagged and leaves the findings alone otherwise. */
  lemma InnerStep(before: seq<Statement>, sts: seq<Statement>, j: nat, findings: seq<string>)
    requires j < |sts| && sts[j].effect.Some?
    requires ScanStatements(before + sts[..j]) == Ok(findings)
    ensures ScanStatements(before + sts[..j + 1]) ==
      Ok(if IsOverPermissive(sts[j]) then findings + [FindingText(sts[j])] else findings)
  {
    ScanStep(before + sts[..j], sts[j], findings);
    assert before + sts[..j + 1] == (before + sts[..j]) + [sts[j]];
    assert findings + [] == findings;
  }

  /** `analyze_iam_policies`, with its two nested loops. */
  method AnalyzeIamPolicies(policies: seq<Policy>) returns (r: Result<seq<string>, IamError>)
    ensures r == ScanStatements(AllStatements(policies))
  {
    var findings: seq<string> := [];
    for p := 0 to |policies|
      invariant ScanStatements(AllStatements(policies[..p])) == Ok(findings)
    {
      var sts := StatementsOf(policies[p]);
      var before := AllStatements(policies[..p]);
      assert before + sts[..0] == before;
      for j := 0 to |sts|
        invariant ScanStatements(before + sts[..j]) == Ok(findings)
      {
        var st := sts[j];
        if st.effect.None? {
          MissingEffectAnywhere(policies, p, j);
          return Err(MissingEffect);
        }
        InnerStep(before, sts, j, findings);
        if st.effect.value == "Allow" && HasWildcard(st.resource) {
          findings := findings + [FindingText(st)];
        }
      }
      assert sts[..|sts|] == sts;
      AllStatementsStep(policies, p);
    }
    assert policies[..|policies|] == policies;
    r := Ok(findings);
  }

  /** The short-circuit of `suggest_least_privilege_policy`: no findings, no
      call to the model. */
  function SuggestLeastPrivilege(findings: seq<string>, modelText: string): (r: seq<string>)
    ensures |findings| == 0 ==> r == [NoChangesNeeded]
    ensures |findings| > 0 ==> r == [modelText]
  {
    if |findings| == 0 then [NoChangesNeeded] else [modelText]
  }

  /** `analyze_iam`: a failed fetch is replaced by the sample policy; a
      missing `Effect` propagates; an empty result reads "No issues found.". */
  function AnalyzeIam(fetched: Option<seq<Policy>>, modelText: string): (r: Result<Analysis, IamError>)
    ensures var sts := AllStatements(fetched.GetOr([SampleIamPolicy]));
      && (r.Err? <==> SomeEffectMissing(sts))
      && (r.Ok? && |Flagged(sts)| == 0 ==> r.value == Analysis([NoIssuesFound], [NoChangesNeeded]))
      && (r.Ok? && |Flagged(sts)| > 0 ==>
            r.value.findings == ScanStatements(sts).value && r.value.suggestions == [modelText])
  {
    var policies := if fetched.None? then [SampleIamPolicy] else fetched.value;
    match ScanStatements(AllStatements(policies))
    case Err(e) => Err(e)
    case Ok(findings) =>
      Ok(Analysis(if |findings| == 0 then [NoIssuesFound] else findings,
                  SuggestLeastPrivilege(findings, modelText)))
  }

  /** `in` means a substring test on a string resource and an exact element
      test on a list: a wildcard inside an ARN counts only in the first form. */
  lemma WildcardSemantics()
    ensures HasWildcard(Some(Single("arn:aws:s3:::b/*")))
    ensures !HasWildcard(Some(Many(["arn:aws:s3:::b/*"])))
    ensures HasWildcard(Some(Many(["arn:aws:s3:::b", "*"])))
    ensures !HasWildcard(None)
  {
    var arn := "arn:aws:s3:::b/*";
    assert arn[15..][..1] == "*";
    assert "arn:aws:s3:::b/*" != "*";
  }

  /** Statements whose `Effect` is anything but "Allow" never produce a finding. */
  lemma NonAllowNeverFlagged(sts: seq<Statement>)
    requires forall i :: 0 <= i < |sts| ==> sts[i].effect.Some? && sts[i].effect.value != "Allow"
    ensures ScanStatements(sts) == Ok([])
  {
  }

  /** A statement without `Resource` is never flagged, whatever its effect. */
  lemma MissingResourceNeverFlagged(st: Statement)
    requires st.effect.Some? && st.resource.None?
    ensures ScanStatements([st]) == Ok([])
  {
    ScanOne(st);
  }

  /** A policy without "Statement" contributes nothing, wherever it stands. */
  lemma PolicyWithoutStatements(before: seq<Policy>, after: seq<Policy>)
    ensures AllStatements(before + [Policy(None)] + after) == AllStatements(before + after)
  {
    AllStatementsAppend(before + [Policy(None)], after);
    AllStatementsAppend(before, [Policy(None)]);
    assert AllStatements([Policy(None)]) == [];
    AllStatementsAppend(before, after);
  }

  /** The fallback policy yields exactly one finding, the same on every failed fetch. */
  lemma FallbackYieldsOneFinding(modelText: string)
    ensures AnalyzeIam(None, modelText) ==
      Ok(Analysis([FindingText(StatementsOf(SampleIamPolicy)[0])], [modelText]))
  {
    var st := StatementsOf(SampleIamPolicy)[0];
    assert Contains("*", "*") by {
      ContainsPrefix("*", "*");
    }
    assert IsOverPermissive(st);
    ScanOne(st);
    assert AllStatements([SampleIamPolicy]) == [st] by {
      assert AllStatements([SampleIamPolicy][1..]) == [];
    }
  }

  /** A fetch that succeeds with no policies is not a failure: nothing is
      found and nothing needs changing. */
  lemma EmptyFetchFindsNothing(modelText: string)
    ensures AnalyzeIam(Some([]), modelText) == Ok(Analysis([NoIssuesFound], [NoChangesNeeded]))
  {
  }

  /** Every finding opens with "High risk", whatever the statement. */
  lemma FindingsAreHighRisk(sts: seq<Statement>)
    requires ScanStatements(sts).Ok?
    ensures forall i :: 0 <= i < |ScanStatements(sts).value| ==>
      StartsWith(ScanStatements(sts).value[i], FindingPrefix)
  {
  }
}

=== FILE: infra.dfy ===
/** The Terraform diff summariser: counting added and removed lines of a
    diff, the four findings of one diff, and the shaping of the pull-request
    summary with its fallback sample. The GitHub fetch is an optional input
    (`None` when it failed) holding one optional patch per Terraform file
    (`None` where GitHub left the patch out), and the model's reply is a
    function of the diff text its prompt carries. */
module InfraSummarizer {

  import opened Text
  import opened Results
  import opened Analyses

  /** `analyze_diff` fails on a file whose patch is absent (`None` has no
      `split`), and nothing in `summarize_infra` catches it. */
  datatype InfraError = MissingPatch

  const LineBreak := "\n"
  const AddedMark := '+'
  const RemovedMark := '-'

  const DiffContentHeader := "Diff content:"
  const NoChangesFinding := "No Terraform changes detected."
  const NoSuggestionsNeeded := "No suggestions needed."
  const GeminiMarker := "See diff content below analyzed by Gemini."

  /** The marker line has neither 'h' nor 'k' in either case. */
  lemma GeminiMarkerLetters()
    ensures Avoids(GeminiMarker, {'h', 'H', 'k', 'K'})
  {
  }

  /** The "no changes" line has no 'i' in either case. */
  lemma NoChangesLetters()
    ensures Avoids(NoChangesFinding, {'i', 'I'})
  {
  }

  /** The lines of the fallback diff: an empty line, seven added lines,
      seven removed lines and a final empty line, as in the triple-quoted
      constant that opens and closes with a line break. */
  const SampleAddedLines: seq<string> := [
    "+ resource \"aws_security_group\" \"example\" {",
    "+   ingress {",
    "+     from_port   = 22",
    "+     to_port     = 22",
    "+     protocol    = \"tcp\"",
    "+     cidr_blocks = [\"0.0.0.0/0\"]",
    "+   }"
  ]

  const SampleRemovedLines: seq<string> := [
    "- resource \"aws_security_group\" \"old\" {",
    "-   ingress {",
    "-     from_port   = 80",
    "-     to_port     = 80",
    "-     protocol    = \"tcp\"",
    "-     cidr_blocks = [\"10.0.0.0/16\"]",
    "-   }"
  ]

  const SampleDiffLines: seq<string> := [""] + SampleAddedLines + SampleRemovedLines + [""]

  const SampleTerraformDiff: string := Join("\n", SampleDiffLines)

  /** A line counts under `mark` when, stripped of surrounding whitespace,
      it starts with that character. */
  predicate IsMarked(line: string, mark: char) {
    StartsWith(Strip(line), [mark])
  }

  /** The number of lines marked with `mark`. */
  function CountMarked(lines: seq<string>, mark: char): (n: nat)
    ensures n <= |lines|
  {
    if |lines| == 0 then 0
    else (if IsMarked(lines[0], mark) then 1 else 0) + CountMarked(lines[1..], mark)
  }

  /** A line is marked exactly when its first non-whitespace character is the mark. */
  lemma MarkedIff(line: string, mark: char)
    requires !IsSpace(mark)
    ensures IsMarked(line, mark) <==> FirstNonSpace(line) == Some(mark)
  {
    StripHead(line);
  }

  /** Whitespace-only lines and context lines are counted under neither mark. */
  lemma UnmarkedLines(line: string)
    requires FirstNonSpace(line).None? || FirstNonSpace(line).value !in {AddedMark, RemovedMark}
    ensures !IsMarked(line, AddedMark) && !IsMarked(line, RemovedMark)
  {
    MarkedIff(line, AddedMark);
    MarkedIff(line, RemovedMark);
  }

  /** A whitespace-only line has no first non-whitespace character. */
  lemma {:induction false} BlankLineHasNoHead(line: string)
    requires forall i :: 0 <= i < |line| ==> IsSpace(line[i])
    ensures FirstNonSpace(line).None?
  {
    if |line| > 0 {
      BlankLineHasNoHead(line[1..]);
    }
  }

  /** No line is both added and removed, so the two counts together never
      exceed the number of lines. */
  lemma {:induction false} CountsDisjoint(lines: seq<string>)
    ensures CountMarked(lines, AddedMark) + CountMarked(lines, RemovedMark) <= |lines|
  {
    if |lines| > 0 {
      CountsDisjoint(lines[1..]);
      assert !(IsMarked(lines[0], AddedMark) && IsMarked(lines[0], RemovedMark));
    }
  }

  lemma {:induction false} CountMarkedAppend(a: seq<string>, b: seq<string>, mark: char)
    ensures CountMarked(a + b, mark) == CountMarked(a, mark) + CountMarked(b, mark)
  {
    if |a| > 0 {
      assert (a + b)[1..] == a[1..] + b;
      CountMarkedAppend(a[1..], b, mark);
    } else {
      assert a + b == b;
    }
  }

  /** Lines that all open with the same non-whitespace character are all
      counted under it, or none are counted under any other mark. */
  lemma {:induction false} CountUniformLines(lines: seq<string>, head: char, mark: char)
    requires !IsSpace(head) && !IsSpace(mark)
    requires forall i :: 0 <= i < |lines| ==> |lines[i]| > 0 && lines[i][0] == head
    ensures CountMarked(lines, mark) == if head == mark then |lines| else 0
  {
    if |lines| > 0 {
      MarkedIff(lines[0], mark);
      CountUniformLines(lines[1..], head, mark);
    }
  }

  const CountTail := " lines."

  function CountLine(kind: string, n: nat): string {
    kind + ": " + NatToString(n) + CountTail
  }

  /** A count line is the kind and a colon, the count's decimal text, then
      " lines."; the count reads back from the line. */
  lemma CountLineReadsBack(kind: string, n: nat)
    ensures var r := CountLine(kind, n);
      && |r| >= |kind| + 3 + |CountTail|
      && r[..|kind| + 2] == kind + ": " && r[|r| - |CountTail|..] == CountTail
      && var digits := r[|kind| + 2..|r| - |CountTail|];
         IsDigits(digits) && ParseDigits(digits) == n
  {
    var digits := NatToString(n);
    ParseNatToString(n);
    var r := kind + ": " + digits + CountTail;
    assert r[..|kind| + 2] == kind + ": ";
    assert r[|kind| + 2..|r| - |CountTail|] == digits;
  }

  /** A count line has neither 'h' nor 'k' in either case: the digits bring none. */
  lemma CountLineLetters(kind: string, n: nat)
    requires kind == "Added" || kind == "Removed"
    ensures Avoids(CountLine(kind, n), {'h', 'H', 'k', 'K'})
  {
    var cs := {'h', 'H', 'k', 'K'};
    var digits := NatToString(n);
    assert Avoids(kind + ": ", cs);
    assert Avoids(digits, cs);
    assert Avoids(CountTail, cs);
    AvoidsConcat(kind + ": ", digits, cs);
    AvoidsConcat(kind + ": " + digits, CountTail, cs);
  }

  /** `analyze_diff`: the added count, the removed count, a header and the
      diff itself, counting over the '\n'-separated lines. */
  function AnalyzeDiff(diffText: string): (findings: seq<string>)
    ensures |findings| == 4
    ensures findings[2] == DiffContentHeader && findings[3] == diffText
    ensures findings[0] == CountLine("Added", CountMarked(Split(diffText, '\n'), AddedMark))
    ensures findings[1] == CountLine("Removed", CountMarked(Split(diffText, '\n'), RemovedMark))
  {
    var lines := Split(diffText, '\n');
    [ CountLine("Added", CountMarked(lines, AddedMark)),
      CountLine("Removed", CountMarked(lines, RemovedMark)),
      DiffContentHeader,
      diffText ]
  }

  /** Some fetched patch is absent. */
  predicate SomePatchMissing(patches: seq<Option<string>>) {
    exists i :: 0 <= i < |patches| && patches[i].None?
  }

  /** The loop of `summarize_infra` over every patch: four findings per
      patch, one block after another, failing on an absent patch. */
  function AllDiffFindings(patches: seq<Option<string>>): (r: Result<seq<string>, InfraError>)
    ensures r.Err? <==> SomePatchMissing(patches)
    ensures r.Ok? ==> |r.value| == 4 * |patches|
    ensures r.Ok? && |patches| > 0 ==> r.value[..4] == AnalyzeDiff(patches[0].value)
  {
    if |patches| == 0 then Ok([])
    else if patches[0].None? then Err(MissingPatch)
    else
      assert forall i :: 0 <= i < |patches| - 1 ==> patches[1..][i] == patches[i + 1];
      match AllDiffFindings(patches[1..])
      case Err(e) => Err(e)
      case Ok(rest) => Ok(AnalyzeDiff(patches[0].value) + rest)
  }

  /** Finding `j` of patch `k` sits at position `4 * k + j`. */
  lemma {:induction false} DiffFindingAt(patches: seq<Option<string>>, k: nat, j: nat)
    requires AllDiffFindings(patches).Ok?
    requires k < |patches| && j < 4
    ensures patches[k].Some?
    ensures AllDiffFindings(patches).value[4 * k + j] == AnalyzeDiff(patches[k].value)[j]
  {
    var all := AllDiffFindings(patches).value;
    if k == 0 {
      assert all[j] == all[..4][j];
    } else {
      assert patches[0].Some?;
      var rest := AllDiffFindings(patches[1..]);
      assert all == AnalyzeDiff(patches[0].value) + rest.value;
      DiffFindingAt(patches[1..], k - 1, j);
      assert patches[1..][k - 1] == patches[k];
      assert all[4 * k + j] == rest.value[4 * (k - 1) + j];
    }
  }

  /** The diff text `suggest_diff_resolution` places in its prompt: every
      finding after the first two, one per line. */
  function DiffPromptText(findings: seq<string>): string
    requires |findings| >= 2
  {
    Join(LineBreak, findings[2..])
  }

  /** Each finding after the first two occurs in the prompt's diff text. */
  lemma PromptLineContained(findings: seq<string>, i: nat, line: string)
    requires |findings| >= 2 && i < |findings| - 2 && findings[2 + i] == line
    ensures Contains(DiffPromptText(findings), line)
  {
    assert findings[2..][i] == line;
    JoinContainsPart(LineBreak, findings[2..], i);
  }

  /** `summarize_infra`: a failed fetch is replaced by the sample diff, a
      fetched empty list short-circuits to the "no changes" record, an absent
      patch anywhere is an error, and otherwise the findings keep only the
      first diff's two counts and a marker line naming the model's review,
      while the model reads the findings of every diff. */
  function SummarizeInfra(fetched: Option<seq<Option<string>>>, model: string -> string): (r: Result<Analysis, InfraError>)
    ensures r.Err? <==> SomePatchMissing(fetched.GetOr([Some(SampleTerraformDiff)]))
    ensures fetched == Some([]) ==> r == Ok(Analysis([NoChangesFinding], [NoSuggestionsNeeded]))
    ensures fetched != Some([]) && r.Ok? ==>
      var patches := fetched.GetOr([Some(SampleTerraformDiff)]);
      && r.value.findings == AnalyzeDiff(patches[0].value)[..2] + [GeminiMarker]
      && r.value.suggestions == [model(DiffPromptText(AllDiffFindings(patches).value))]
  {
    var patches := if fetched.None? then [Some(SampleTerraformDiff)] else fetched.value;
    if |patches| == 0 then
      Ok(Analysis([NoChangesFinding], [NoSuggestionsNeeded]))
    else
      match AllDiffFindings(patches)
      case Err(e) => Err(e)
      case Ok(findings) =>
        assert findings[..2] == findings[..4][..2];
        Ok(Analysis(findings[..2] + [GeminiMarker], [model(DiffPromptText(findings))]))
  }

  lemma AddedLine0Unbroken()
    ensures '\n' !in SampleAddedLines[0]
  {
  }

  lemma AddedLine1Unbroken()
    ensures '\n' !in SampleAddedLines[1]
  {
  }

  lemma AddedLine2Unbroken()
    ensures '\n' !in SampleAddedLines[2]
  {
  }

  lemma AddedLine3Unbroken()
    ensures '\n' !in SampleAddedLines[3]
  {
  }

  lemma AddedLine4Unbroken()
    ensures '\n' !in SampleAddedLines[4]
  {
  }

  lemma AddedLine5Unbroken()
    ensures '\n' !in SampleAddedLines[5]
  {
  }

  lemma AddedLine6Unbroken()
    ensures '\n' !in SampleAddedLines[6]
  {
  }

  lemma RemovedLine0Unbroken()
    ensures '\n' !in SampleRemovedLines[0]
  {
  }

  lemma RemovedLine1Unbroken()
    ensures '\n' !in SampleRemovedLines[1]
  {
  }

  lemma RemovedLine2Unbroken()
    ensures '\n' !in SampleRemovedLines[2]
  {
  }

  lemma RemovedLine3Unbroken()
    ensures '\n' !in SampleRemovedLines[3]
  {
  }

  lemma RemovedLine4Unbroken()
    ensures '\n' !in SampleRemovedLines[4]
  {
  }

  lemma RemovedLine5Unbroken()
    ensures '\n' !in SampleRemovedLines[5]
  {
  }

  lemma RemovedLine6Unbroken()
    ensures '\n' !in SampleRemovedLines[6]
  {
  }

  lemma SampleAddedUnbroken()
    ensures forall i :: 0 <= i < |SampleAddedLines| ==> '\n' !in SampleAddedLines[i]
  {
    AddedLine0Unbroken(); AddedLine1Unbroken(); AddedLine2Unbroken(); AddedLine3Unbroken();
    AddedLine4Unbroken(); AddedLine5Unbroken(); AddedLine6Unbroken();
  }

  lemma SampleRemovedUnbroken()
    ensures forall i :: 0 <= i < |SampleRemovedLines| ==> '\n' !in SampleRemovedLines[i]
  {
    RemovedLine0Unbroken(); RemovedLine1Unbroken(); RemovedLine2Unbroken(); RemovedLine3Unbroken();
    RemovedLine4Unbroken(); RemovedLine5Unbroken(); RemovedLine6Unbroken();
  }

  /** Only the first diff's counts reach the summary's findings: the
      diffs after it can only make it fail, by an absent patch. */
  lemma LaterDiffsIgnored(first: string, rest: seq<Option<string>>, model: string -> string)
    ensures SummarizeInfra(Some([Some(first)] + rest), model).Err? <==> SomePatchMissing(rest)
    ensures SummarizeInfra(Some([Some(first)] + rest), model).Ok? ==>
      SummarizeInfra(Some([Some(first)] + rest), model).value.findings ==
      SummarizeInfra(Some([Some(first)]), model).value.findings
  {
    var patches := [Some(first)] + rest;
    assert forall i :: 0 <= i < |rest| ==> patches[i + 1] == rest[i];
    assert patches[0] == Some(first);
    assert !SomePatchMissing([Some(first)]);
  }

  /** A present patch in front adds its four findings in front. */
  lemma DiffFindingsCons(first: string, rest: seq<Option<string>>)
    requires AllDiffFindings(rest).Ok?
    ensures AllDiffFindings([Some(first)] + rest) == Ok(AnalyzeDiff(first) + AllDiffFindings(rest).value)
  {
    assert ([Some(first)] + rest)[1..] == rest;
  }

  /** Without its two count lines, a diff's findings are its header and text. */
  lemma DropCounts(diffText: string, tail: seq<string>)
    ensures (AnalyzeDiff(diffText) + tail)[2..] == [DiffContentHeader, diffText] + tail
  {
    var f := AnalyzeDiff(diffText);
    assert f[2..] == [DiffContentHeader, diffText];
    assert (f + tail)[2..] == f[2..] + tail;
  }

  /** The later diffs do reach the model: its prompt carries the first
      diff's header and text, then every finding of the later diffs. */
  lemma PromptCarriesLaterDiffs(first: string, rest: seq<Option<string>>, model: string -> string)
    ensures SummarizeInfra(Some([Some(first)] + rest), model).Ok? ==>
      AllDiffFindings(rest).Ok? &&
      SummarizeInfra(Some([Some(first)] + rest), model).value.suggestions ==
        [model(Join(LineBreak, [DiffContentHeader, first] + AllDiffFindings(rest).value))]
  {
    var patches := [Some(first)] + rest;
    if AllDiffFindings(patches).Ok? {
      assert forall i :: 0 <= i < |rest| ==> patches[i + 1] == rest[i];
      assert AllDiffFindings(rest).Ok?;
      DiffFindingsCons(first, rest);
      DropCounts(first, AllDiffFindings(rest).value);
    }
  }

  /** Patch `k`'s text is finding `4 * k + 3`. */
  lemma DiffTextAt(patches: seq<Option<string>>, k: nat)
    requires AllDiffFindings(patches).Ok? && k < |patches|
    ensures patches[k].Some?
    ensures AllDiffFindings(patches).value[4 * k + 3] == patches[k].value
  {
    DiffFindingAt(patches, k, 3);
  }

  /** Every fetched diff's text occurs in the diff text of the prompt. */
  lemma PromptCarriesEveryDiff(patches: seq<Option<string>>, k: nat)
    requires AllDiffFindings(patches).Ok? && k < |patches|
    ensures patches[k].Some?
    ensures Contains(DiffPromptText(AllDiffFindings(patches).value), patches[k].value)
  {
    var all := AllDiffFindings(patches).value;
    var text := patches[k].value;
    var i := 4 * k + 1;
    DiffTextAt(patches, k);
    assert |all| == 4 * |patches| && all[2 + i] == text;
    PromptLineContained(all, i, text);
  }

  /** No line of the sample diff holds a line break. */
  lemma SampleLinesUnbroken()
    ensures forall i :: 0 <= i < |SampleDiffLines| ==> '\n' !in SampleDiffLines[i]
  {
    SampleAddedUnbroken();
    SampleRemovedUnbroken();
    var lines := [""] + SampleAddedLines + SampleRemovedLines + [""];
    forall i | 0 <= i < |lines|
      ensures '\n' !in lines[i]
    {
      if 1 <= i <= 7 {
        assert lines[i] == SampleAddedLines[i - 1];
      } else if 8 <= i <= 14 {
        assert lines[i] == SampleRemovedLines[i - 8];
      }
    }
  }

  /** The sample diff splits back into its sixteen lines. */
  lemma SampleDiffSplits()
    ensures Split(SampleTerraformDiff, '\n') == SampleDiffLines
  {
    SampleLinesUnbroken();
    SplitJoin(SampleDiffLines, '\n');
  }

  lemma SampleAddedUniform()
    ensures forall i :: 0 <= i < |SampleAddedLines| ==> |SampleAddedLines[i]| > 0 && SampleAddedLines[i][0] == AddedMark
  {
  }

  lemma SampleRemovedUniform()
    ensures forall i :: 0 <= i < |SampleRemovedLines| ==> |SampleRemovedLines[i]| > 0 && SampleRemovedLines[i][0] == RemovedMark
  {
  }

  lemma EmptyLineUncounted(mark: char)
    ensures CountMarked([""], mark) == 0
  {
    assert Strip("") == "";
  }

  /** Counting a block of added lines followed by a block of removed lines
      between two empty lines: the added block counts under '+', the
      removed block under '-'. */
  lemma {:induction false} CountTwoBlocks(added: seq<string>, removed: seq<string>, mark: char)
    requires mark == AddedMark || mark == RemovedMark
    requires forall i :: 0 <= i < |added| ==> |added[i]| > 0 && added[i][0] == AddedMark
    requires forall i :: 0 <= i < |removed| ==> |removed[i]| > 0 && removed[i][0] == RemovedMark
    ensures CountMarked([""] + added + removed + [""], mark) == if mark == AddedMark then |added| else |removed|
  {
    var empty: seq<string> := [""];
    EmptyLineUncounted(mark);
    CountUniformLines(added, AddedMark, mark);
    CountUniformLines(removed, RemovedMark, mark);
    CountMarkedAppend(empty, added, mark);
    CountMarkedAppend(empty + added, removed, mark);
    CountMarkedAppend(empty + added + removed, empty, mark);
  }

  /** Seven lines of the sample are added and seven removed. */
  lemma SampleDiffCounts(mark: char)
    requires mark == AddedMark || mark == RemovedMark
    ensures CountMarked(SampleDiffLines, mark) == 7
  {
    SampleAddedUniform();
    SampleRemovedUniform();
    CountTwoBlocks(SampleAddedLines, SampleRemovedLines, mark);
  }

  lemma SevenLines()
    ensures CountLine("Added", 7) == "Added: 7 lines."
    ensures CountLine("Removed", 7) == "Removed: 7 lines."
  {
    assert NatToString(7) == "7";
  }

  /** Any diff text whose lines are those of the sample is counted as
      seven added and seven removed lines. */
  lemma SampleShapedCounts(diffText: string)
    requires Split(diffText, '\n') == SampleDiffLines
    ensures AnalyzeDiff(diffText)[..2] == ["Added: 7 lines.", "Removed: 7 lines."]
  {
    SampleDiffCounts(AddedMark);
    SampleDiffCounts(RemovedMark);
    var lines := Split(diffText, '\n');
    assert CountMarked(lines, AddedMark) == 7;
    assert CountMarked(lines, RemovedMark) == 7;
    SevenLines();
  }

  /** Every failed fetch yields the same findings, taken from the sample diff. */
  lemma FallbackIsFixed(model: string -> string)
    ensures SummarizeInfra(None, model).Ok?
    ensures SummarizeInfra(None, model).value.findings ==
      ["Added: 7 lines.", "Removed: 7 lines.", GeminiMarker]
  {
    assert !SomePatchMissing([Some(SampleTerraformDiff)]);
    SampleDiffSplits();
    SampleShapedCounts(SampleTerraformDiff);
  }
}

=== FILE: kafka.dfy ===
/** The Kafka lag explainer: synthetic log entries, the clamped lag sum,
    the threshold findings and the canned suggestion when no high lag is
    reported. The random draws of the generator are an input sequence, one
    draw per entry; the model's suggestion text is an input string. */
module KafkaExplainer {

  import opened Text
  import opened Analyses

  /** One synthetic log entry; timestamps and partitions are not modelled. */
  datatype LogEntry = LogEntry(offset: int, consumerOffset: int)

  const OffsetStep := 10
  const MaxDraw := 20
  const DefaultThreshold := 100

  /** The marker `suggest_kafka_resolution` looks for, and the finding that carries it. */
  const HighLagMarker := "High lag"
  const HighLagFinding := HighLagMarker + " detected, indicating transaction delays."
  const WithinLimits := "Lag within acceptable limits."

  /** What `random.randint(0, 20)` can return, for every entry. */
  predicate ValidDraws(draws: seq<int>) {
    forall i :: 0 <= i < |draws| ==> 0 <= draws[i] <= MaxDraw
  }

  /** `generate_synthetic_kafka_logs` with `num_entries == |draws|`: entry
      `i` sits at offset `10 * i` and its consumer trails it by `draws[i]`. */
  function GenerateSyntheticLogs(draws: seq<int>): (logs: seq<LogEntry>)
    ensures |logs| == |draws|
    ensures forall i :: 0 <= i < |logs| ==>
      logs[i].offset == OffsetStep * i && logs[i].offset - logs[i].consumerOffset == draws[i]
  {
    seq(|draws|, i requires 0 <= i < |draws| => LogEntry(OffsetStep * i, OffsetStep * i - draws[i]))
  }

  /** The lag one entry contributes: its gap, or nothing when the consumer
      is level or ahead. */
  function EntryLag(e: LogEntry): nat {
    if e.offset - e.consumerOffset > 0 then e.offset - e.consumerOffset else 0
  }

  /** The reference total: the sum of `max(0, offset - consumer_offset)`. */
  function LagSum(logs: seq<LogEntry>): nat {
    if |logs| == 0 then 0 else EntryLag(logs[0]) + LagSum(logs[1..])
  }

  /** The total lag is additive over concatenation of log lists. */
  lemma {:induction false} LagSumAppend(a: seq<LogEntry>, b: seq<LogEntry>)
    ensures LagSum(a + b) == LagSum(a) + LagSum(b)
  {
    if |a| > 0 {
      assert (a + b)[1..] == a[1..] + b;
      LagSumAppend(a[1..], b);
    } else {
      assert a + b == b;
    }
  }

  /** `calculate_synthetic_lag`, loop for loop: positive gaps are added up,
      others are skipped. */
  method CalculateSyntheticLag(logs: seq<LogEntry>) returns (totalLag: int)
    ensures totalLag == LagSum(logs)
    ensures totalLag >= 0
    ensures |logs| == 0 ==> totalLag == 0
  {
    totalLag := 0;
    for i := 0 to |logs|
      invariant totalLag == LagSum(logs[..i])
    {
      var lag := logs[i].offset - logs[i].consumerOffset;
      if lag > 0 {
        totalLag := totalLag + lag;
      }
      assert logs[..i + 1] == logs[..i] + [logs[i]];
      LagSumAppend(logs[..i], [logs[i]]);
    }
    assert logs[..|logs|] == logs;
  }

  /** The worked example: gaps 5, -3 and 10 total 15, not 12. */
  lemma LagExample()
    ensures LagSum([LogEntry(5, 0), LogEntry(0, 3), LogEntry(10, 0)]) == 15
  {
  }

  /** Entries whose gaps are at most `MaxDraw` total at most `MaxDraw` each. */
  lemma {:induction false} LagSumBound(logs: seq<LogEntry>)
    requires forall i :: 0 <= i < |logs| ==> logs[i].offset - logs[i].consumerOffset <= MaxDraw
    ensures LagSum(logs) <= MaxDraw * |logs|
  {
    if |logs| > 0 {
      LagSumBound(logs[1..]);
    }
  }

  /** Generated logs never lag by more than twenty messages per entry. */
  lemma GeneratedLagBound(draws: seq<int>)
    requires ValidDraws(draws)
    ensures LagSum(GenerateSyntheticLogs(draws)) <= MaxDraw * |draws|
  {
    LagSumBound(GenerateSyntheticLogs(draws));
  }

  const LagFindingHead := "Total consumer lag: "
  const LagFindingTail := " messages."

  /** The total-lag line: the lag's decimal text between a fixed head and
      tail, so that a non-negative lag reads back from the line. */
  function LagFinding(lag: int): (r: string)
    ensures |r| >= |LagFindingHead| + 1 + |LagFindingTail|
    ensures r[..|LagFindingHead|] == LagFindingHead && r[|r| - |LagFindingTail|..] == LagFindingTail
    ensures lag >= 0 ==>
      var digits := r[|LagFindingHead|..|r| - |LagFindingTail|];
      IsDigits(digits) && ParseDigits(digits) == lag
  {
    var digits := IntToString(lag);
    var r := LagFindingHead + digits + LagFindingTail;
    assert r[|LagFindingHead|..|r| - |LagFindingTail|] == digits;
    r
  }

  /** The total-lag line has neither 'h' nor 'k' in either case: the digits bring none. */
  lemma LagFindingLetters(lag: int)
    ensures Avoids(LagFinding(lag), {'h', 'H', 'k', 'K'})
  {
    var cs := {'h', 'H', 'k', 'K'};
    var digits := IntToString(lag);
    assert Avoids(LagFindingHead, cs);
    assert Avoids(digits, cs);
    assert Avoids(LagFindingTail, cs);
    AvoidsConcat(LagFindingHead, digits, cs);
    AvoidsConcat(LagFindingHead + digits, LagFindingTail, cs);
  }

  /** `analyze_kafka_lag`: the total always comes first, and the high-lag
      line follows only when the lag strictly exceeds the threshold. */
  function AnalyzeKafkaLag(lag: int, threshold: int): (findings: seq<string>)
    ensures 1 <= |findings| <= 2
    ensures findings[0] == LagFinding(lag)
    ensures |findings| == 2 <==> lag > threshold
    ensures |findings| == 2 ==> findings[1] == HighLagFinding
  {
    if lag > threshold then [LagFinding(lag), HighLagFinding] else [LagFinding(lag)]
  }

  /** The short-circuit of `suggest_kafka_resolution`: without "High lag"
      anywhere in the joined findings, the canned line; otherwise the model's
      text. */
  function SuggestKafkaResolution(findings: seq<string>, modelText: string): (r: seq<string>)
    ensures r == [WithinLimits] || r == [modelText]
    ensures (|findings| == 0 || !Contains(Join(" ", findings), HighLagMarker)) ==> r == [WithinLimits]
    ensures (|findings| > 0 && Contains(Join(" ", findings), HighLagMarker)) ==> r == [modelText]
  {
    if |findings| == 0 || !Contains(Join(" ", findings), HighLagMarker) then [WithinLimits] else [modelText]
  }

  /** The total-lag line never mentions "High lag": its only capital letters
      are the leading 'T' and none come from the digits. */
  lemma LagFindingHasNoHighLag(lag: int)
    ensures !Contains(LagFinding(lag), HighLagMarker)
  {
    var s := LagFinding(lag);
    assert 'H' !in LagFindingHead;
    assert 'H' !in LagFindingTail;
    assert 'H' !in IntToString(lag);
    assert 'H' !in s;
    NotContainsForLackOfChar(s, "High lag", 'H');
  }

  /** Once the high-lag line is present, the joined findings mention "High lag". */
  lemma HighLagLineIsSeen(lag: int)
    ensures Contains(Join(" ", [LagFinding(lag), HighLagFinding]), HighLagMarker)
  {
    var head := LagFinding(lag) + " ";
    assert Join(" ", [LagFinding(lag), HighLagFinding]) == head + HighLagFinding;
    assert HighLagFinding[..|HighLagMarker|] == HighLagMarker;
    ContainsPrefix(HighLagFinding, HighLagMarker);
    ContainsRight(head, HighLagFinding, HighLagMarker);
  }

  /** The model is consulted exactly when the lag exceeds the threshold. */
  lemma SuggestionFollowsThreshold(lag: int, threshold: int, modelText: string)
    ensures SuggestKafkaResolution(AnalyzeKafkaLag(lag, threshold), modelText) ==
      (if lag > threshold then [modelText] else [WithinLimits])
  {
    if lag > threshold {
      HighLagLineIsSeen(lag);
    } else {
      LagFindingHasNoHighLag(lag);
    }
  }

  /** `analyze_kafka` with the default threshold of 100: the total lag of
      the generated logs is reported first, the high-lag line is added and
      the model consulted exactly when that total passes 100. */
  function AnalyzeKafka(draws: seq<int>, modelText: string): (a: Analysis)
    ensures var lag := LagSum(GenerateSyntheticLogs(draws));
      && 1 <= |a.findings| <= 2
      && a.findings[0] == LagFinding(lag)
      && (|a.findings| == 2 <==> lag > DefaultThreshold)
      && (|a.findings| == 2 ==> a.findings[1] == HighLagFinding)
      && a.suggestions == if lag > DefaultThreshold then [modelText] else [WithinLimits]
  {
    var logs := GenerateSyntheticLogs(draws);
    var lag := LagSum(logs);
    var findings := AnalyzeKafkaLag(lag, DefaultThreshold);
    SuggestionFollowsThreshold(lag, DefaultThreshold, modelText);
    Analysis(findings, SuggestKafkaResolution(findings, modelText))
  }

  /** With at most five entries the lag cannot pass 100, so the suggestion
      is always the canned line and the model is never asked. */
  lemma SmallBatchNeedsNoModel(draws: seq<int>, modelText: string)
    requires ValidDraws(draws)
    requires |draws| <= 5
    ensures AnalyzeKafka(draws, modelText).suggestions == [WithinLimits]
    ensures |AnalyzeKafka(draws, modelText).findings| == 1
  {
    GeneratedLagBound(draws);
    SuggestionFollowsThreshold(LagSum(GenerateSyntheticLogs(draws)), DefaultThreshold, modelText);
  }

  lemma TwentyText()
    ensures IntToString(20) == "20"
  {
    assert NatToString(2) == "2";
    assert NatToString(20) == NatToString(2) + [DigitChar(0)];
  }

  /** One entry whose consumer trails by the largest draw: lag 20, reported
      as such, with no high-lag line. */
  lemma SingleEntryScenario(modelText: string)
    ensures GenerateSyntheticLogs([20]) == [LogEntry(0, -20)]
    ensures AnalyzeKafka([20], modelText) ==
      Analysis(["Total consumer lag: 20 messages."], [WithinLimits])
  {
    var logs := GenerateSyntheticLogs([20]);
    assert logs == [LogEntry(0, -20)];
    assert LagSum(logs) == 20;
    TwentyText();
    assert LagFinding(20) == "Total consumer lag: 20 messages.";
  }
}

=== FILE: results.dfy ===
/** Optional values and success-or-error results, used for the external
    fetches that may fail and for the errors the analysers let propagate. */
module Results {

  /** A value that may be absent: Python's `None` versus a value. */
  datatype Option<+T> = None | Some(value: T) {

    /** The wrapped value, or `default` when there is none. */
    function GetOr(default: T): (r: T)
      ensures Some? ==> r == value
      ensures None? ==> r == default
    {
      match this
      case Some(v) => v
      case None => default
    }
  }

  /** Either a value or the error that stopped the computation. */
  datatype Result<+T, +E> = Ok(value: T) | Err(error: E)
}

=== FILE: risk.dfy ===
/** What `process_incident` scores for each producer's analysis: the
    severity heuristic applied to the exact findings each producer can
    emit, then the table lookup. */
module IncidentRisk {

  import opened Text
  import opened Results
  import opened Analyses
  import opened DecisionEngine
  import KafkaExplainer
  import InfraSummarizer
  import IamAnalyzer

  // Kafka

  lemma QuietLagFinding(lag: int)
    ensures !MentionsRisk(KafkaExplainer.LagFinding(lag))
  {
    KafkaExplainer.LagFindingLetters(lag);
    QuietFinding(KafkaExplainer.LagFinding(lag));
  }

  lemma HighLagFindingMentionsRisk()
    ensures MentionsRisk(KafkaExplainer.HighLagFinding)
  {
    assert OpensWithHigh(KafkaExplainer.HighLagFinding);
    HighOpeningMentionsRisk(KafkaExplainer.HighLagFinding);
  }

  /** A Kafka incident scores 6 exactly when the total lag passes 100, and 2 otherwise. */
  lemma KafkaRisk(draws: seq<int>, modelText: string, decisionText: string, validationText: string)
    ensures var lag := KafkaExplainer.LagSum(KafkaExplainer.GenerateSyntheticLogs(draws));
      ProcessIncident("kafka", KafkaExplainer.AnalyzeKafka(draws, modelText), decisionText, validationText).riskScore
        == if lag > KafkaExplainer.DefaultThreshold then 6 else 2
  {
    var lag := KafkaExplainer.LagSum(KafkaExplainer.GenerateSyntheticLogs(draws));
    var a := KafkaExplainer.AnalyzeKafka(draws, modelText);
    if lag > KafkaExplainer.DefaultThreshold {
      HighLagFindingMentionsRisk();
      RiskyScore(Kafka, a, decisionText, validationText, 1);
    } else {
      QuietLagFinding(lag);
      assert a.findings == [KafkaExplainer.LagFinding(lag)];
      QuietScore(Kafka, a, decisionText, validationText);
    }
  }

  // Terraform

  lemma QuietCountLine(kind: string, n: nat)
    requires kind == "Added" || kind == "Removed"
    ensures !MentionsRisk(InfraSummarizer.CountLine(kind, n))
  {
    InfraSummarizer.CountLineLetters(kind, n);
    QuietFinding(InfraSummarizer.CountLine(kind, n));
  }

  lemma QuietGeminiMarker()
    ensures !MentionsRisk(InfraSummarizer.GeminiMarker)
  {
    InfraSummarizer.GeminiMarkerLetters();
    QuietFinding(InfraSummarizer.GeminiMarker);
  }

  lemma QuietNoChanges()
    ensures !MentionsRisk(InfraSummarizer.NoChangesFinding)
  {
    InfraSummarizer.NoChangesLetters();
    QuietFinding(InfraSummarizer.NoChangesFinding);
  }

  /** The two count lines of any diff mention no risk. */
  lemma DiffCountsQuiet(first: string)
    ensures !MentionsRisk(InfraSummarizer.AnalyzeDiff(first)[0])
    ensures !MentionsRisk(InfraSummarizer.AnalyzeDiff(first)[1])
  {
    var lines := Split(first, '\n');
    QuietCountLine("Added", InfraSummarizer.CountMarked(lines, InfraSummarizer.AddedMark));
    QuietCountLine("Removed", InfraSummarizer.CountMarked(lines, InfraSummarizer.RemovedMark));
  }

  /** No finding of a Terraform summary mentions risk. */
  lemma InfraFindingsQuiet(fetched: Option<seq<Option<string>>>, model: string -> string)
    requires !InfraSummarizer.SomePatchMissing(fetched.GetOr([Some(InfraSummarizer.SampleTerraformDiff)]))
    ensures var a := InfraSummarizer.SummarizeInfra(fetched, model).value;
      forall i :: 0 <= i < |a.findings| ==> !MentionsRisk(a.findings[i])
  {
    var a := InfraSummarizer.SummarizeInfra(fetched, model).value;
    if fetched == Some([]) {
      QuietNoChanges();
      assert a.findings == [InfraSummarizer.NoChangesFinding];
    } else {
      var patches := fetched.GetOr([Some(InfraSummarizer.SampleTerraformDiff)]);
      var first := patches[0].value;
      var counts := InfraSummarizer.AnalyzeDiff(first);
      assert a.findings == counts[..2] + [InfraSummarizer.GeminiMarker];
      DiffCountsQuiet(first);
      QuietGeminiMarker();
      forall i | 0 <= i < |a.findings|
        ensures !MentionsRisk(a.findings[i])
      {
        if i < 2 {
          assert a.findings[i] == counts[i];
        } else {
          assert a.findings[i] == InfraSummarizer.GeminiMarker;
        }
      }
    }
  }

  /** A Terraform incident always scores 1: none of its findings can mention
      risk, so its severity is always low. */
  lemma InfraRisk(fetched: Option<seq<Option<string>>>, model: string -> string, decisionText: string, validationText: string)
    requires !InfraSummarizer.SomePatchMissing(fetched.GetOr([Some(InfraSummarizer.SampleTerraformDiff)]))
    ensures ProcessIncident("infra", InfraSummarizer.SummarizeInfra(fetched, model).value, decisionText, validationText).riskScore == 1
  {
    InfraFindingsQuiet(fetched, model);
    QuietScore(Infra, InfraSummarizer.SummarizeInfra(fetched, model).value, decisionText, validationText);
  }

  // IAM

  lemma QuietNoIssues()
    ensures !MentionsRisk(IamAnalyzer.NoIssuesFound)
  {
    IamAnalyzer.NoIssuesLetters();
    QuietFinding(IamAnalyzer.NoIssuesFound);
  }

  /** Every IAM finding opens with "High" and so mentions risk. */
  lemma IamFindingMentions(st: IamAnalyzer.Statement)
    ensures MentionsRisk(IamAnalyzer.FindingText(st))
  {
    var f := IamAnalyzer.FindingText(st);
    assert f == IamAnalyzer.FindingPrefix + st.json;
    assert OpensWithHigh(f);
    HighOpeningMentionsRisk(f);
  }

  /** With a flagged statement, the first IAM finding mentions risk. */
  lemma IamFlaggedMentions(fetched: Option<seq<IamAnalyzer.Policy>>, modelText: string)
    requires !IamAnalyzer.SomeEffectMissing(IamAnalyzer.AllStatements(fetched.GetOr([IamAnalyzer.SampleIamPolicy])))
    requires |IamAnalyzer.Flagged(IamAnalyzer.AllStatements(fetched.GetOr([IamAnalyzer.SampleIamPolicy])))| > 0
    ensures var a := IamAnalyzer.AnalyzeIam(fetched, modelText).value;
      |a.findings| > 0 && MentionsRisk(a.findings[0])
  {
    var sts := IamAnalyzer.AllStatements(fetched.GetOr([IamAnalyzer.SampleIamPolicy]));
    var a := IamAnalyzer.AnalyzeIam(fetched, modelText).value;
    assert a.findings == IamAnalyzer.ScanStatements(sts).value;
    IamFindingMentions(IamAnalyzer.Flagged(sts)[0]);
  }

  /** With nothing flagged, the one IAM finding is the quiet "no issues" line. */
  lemma IamUnflaggedQuiet(fetched: Option<seq<IamAnalyzer.Policy>>, modelText: string)
    requires !IamAnalyzer.SomeEffectMissing(IamAnalyzer.AllStatements(fetched.GetOr([IamAnalyzer.SampleIamPolicy])))
    requires |IamAnalyzer.Flagged(IamAnalyzer.AllStatements(fetched.GetOr([IamAnalyzer.SampleIamPolicy])))| == 0
    ensures var a := IamAnalyzer.AnalyzeIam(fetched, modelText).value;
      forall i :: 0 <= i < |a.findings| ==> !MentionsRisk(a.findings[i])
  {
    var a := IamAnalyzer.AnalyzeIam(fetched, modelText).value;
    assert a.findings == [IamAnalyzer.NoIssuesFound];
    QuietNoIssues();
  }

  /** The IAM findings mention risk exactly when some statement is flagged. */
  lemma IamFindingsMention(fetched: Option<seq<IamAnalyzer.Policy>>, modelText: string)
    requires !IamAnalyzer.SomeEffectMissing(IamAnalyzer.AllStatements(fetched.GetOr([IamAnalyzer.SampleIamPolicy])))
    ensures var sts := IamAnalyzer.AllStatements(fetched.GetOr([IamAnalyzer.SampleIamPolicy]));
      var a := IamAnalyzer.AnalyzeIam(fetched, modelText).value;
      (exists i :: 0 <= i < |a.findings| && MentionsRisk(a.findings[i])) <==> |IamAnalyzer.Flagged(sts)| > 0
  {
    var sts := IamAnalyzer.AllStatements(fetched.GetOr([IamAnalyzer.SampleIamPolicy]));
    if |IamAnalyzer.Flagged(sts)| > 0 {
      IamFlaggedMentions(fetched, modelText);
    } else {
      IamUnflaggedQuiet(fetched, modelText);
    }
  }

  /** An IAM incident scores 5 when some statement is flagged and 1 when
      nothing is. */
  lemma IamRisk(fetched: Option<seq<IamAnalyzer.Policy>>, modelText: string, decisionText: string, validationText: string)
    requires !IamAnalyzer.SomeEffectMissing(IamAnalyzer.AllStatements(fetched.GetOr([IamAnalyzer.SampleIamPolicy])))
    ensures var sts := IamAnalyzer.AllStatements(fetched.GetOr([IamAnalyzer.SampleIamPolicy]));
      ProcessIncident("iam", IamAnalyzer.AnalyzeIam(fetched, modelText).value, decisionText, validationText).riskScore
        == if |IamAnalyzer.Flagged(sts)| > 0 then 5 else 1
  {
    var sts := IamAnalyzer.AllStatements(fetched.GetOr([IamAnalyzer.SampleIamPolicy]));
    var a := IamAnalyzer.AnalyzeIam(fetched, modelText).value;
    if |IamAnalyzer.Flagged(sts)| > 0 {
      IamFlaggedMentions(fetched, modelText);
      RiskyScore(Iam, a, decisionText, validationText, 0);
    } else {
      IamUnflaggedQuiet(fetched, modelText);
      QuietScore(Iam, a, decisionText, validationText);
    }
  }

  /** The same in terms of the statements themselves: an IAM incident scores
      5 exactly when some statement is an `Allow` with a wildcard resource. */
  lemma IamRiskByStatements(fetched: Option<seq<IamAnalyzer.Policy>>, modelText: string, decisionText: string, validationText: string)
    requires !IamAnalyzer.SomeEffectMissing(IamAnalyzer.AllStatements(fetched.GetOr([IamAnalyzer.SampleIamPolicy])))
    ensures var sts := IamAnalyzer.AllStatements(fetched.GetOr([IamAnalyzer.SampleIamPolicy]));
      ProcessIncident("iam", IamAnalyzer.AnalyzeIam(fetched, modelText).value, decisionText, validationText).riskScore
        == if exists i :: 0 <= i < |sts| && IamAnalyzer.IsOverPermissive(sts[i]) then 5 else 1
  {
    IamRisk(fetched, modelText, decisionText, validationText);
    IamAnalyzer.FlaggedComplete(IamAnalyzer.AllStatements(fetched.GetOr([IamAnalyzer.SampleIamPolicy])));
  }
}

=== FILE: text.dfy ===
/** The Python string built-ins the incident producers rely on: `str.isspace`,
    `str.lower`, `str.strip`, `str.startswith`, the `in` substring test,
    `str.split` on one separator, `str.join`, and decimal `str(int)`. */
module Text {

  import opened Results

  /** Python's `str.isspace` for a single character. */
  predicate IsSpace(c: char) {
    || ('\U{9}' <= c <= '\U{D}')      // tab, line feed, vertical tab, form feed, carriage return
    || ('\U{1C}' <= c <= '\U{20}')    // file/group/record/unit separators and space
    || c == '\U{85}' || c == '\U{A0}' || c == '\U{1680}'
    || ('\U{2000}' <= c <= '\U{200A}')
    || c == '\U{2028}' || c == '\U{2029}' || c == '\U{202F}' || c == '\U{205F}' || c == '\U{3000}'
  }

  /** Lower-casing of one character, restricted to the ASCII letters. */
  function LowerChar(c: char): char {
    if 'A' <= c <= 'Z' then (c as int - 'A' as int + 'a' as int) as char else c
  }

  function ToLower(s: string): (r: string)
    ensures |r| == |s|
    ensures forall i :: 0 <= i < |s| ==> r[i] == LowerChar(s[i])
  {
    seq(|s|, i requires 0 <= i < |s| => LowerChar(s[i]))
  }

  lemma ToLowerAppend(a: string, b: string)
    ensures ToLower(a + b) == ToLower(a) + ToLower(b)
  {
    assert forall i :: 0 <= i < |a + b| ==> ToLower(a + b)[i] == (ToLower(a) + ToLower(b))[i];
  }

  /** Lower-casing twice is lower-casing once. */
  lemma ToLowerIdempotent(s: string)
    ensures ToLower(ToLower(s)) == ToLower(s)
  {
  }

  /** A string without ASCII capitals is its own lower-case form. */
  lemma ToLowerOfLower(s: string)
    requires forall i :: 0 <= i < |s| ==> !('A' <= s[i] <= 'Z')
    ensures ToLower(s) == s
  {
  }

  function UpperChar(c: char): char
    requires 'a' <= c <= 'z'
  {
    (c as int - 'a' as int + 'A' as int) as char
  }

  /** A lower-case letter that appears in a string in neither case is
      absent from its lower-cased form. */
  lemma LowerAbsent(s: string, c: char)
    requires 'a' <= c <= 'z'
    requires c !in s && UpperChar(c) !in s
    ensures c !in ToLower(s)
  {
    forall i | 0 <= i < |s|
      ensures ToLower(s)[i] != c
    {
      assert s[i] != c && s[i] != UpperChar(c);
    }
  }

  /** `s` holds none of the characters in `cs`. */
  predicate Avoids(s: string, cs: set<char>) {
    forall i :: 0 <= i < |s| ==> s[i] !in cs
  }

  lemma AvoidsConcat(a: string, b: string, cs: set<char>)
    requires Avoids(a, cs) && Avoids(b, cs)
    ensures Avoids(a + b, cs)
  {
    forall i | 0 <= i < |a + b|
      ensures (a + b)[i] !in cs
    {
      if i >= |a| {
        assert (a + b)[i] == b[i - |a|];
      }
    }
  }

  /** The string opens with the four letters "High". */
  predicate OpensWithHigh(s: string) {
    |s| >= 4 && s[0] == 'H' && s[1] == 'i' && s[2] == 'g' && s[3] == 'h'
  }

  /** Lower-casing turns a leading "High" into "high". */
  lemma LowerOfHigh(s: string)
    requires OpensWithHigh(s)
    ensures StartsWith(ToLower(s), "high")
  {
    assert ToLower(s)[..4] == "high";
  }

  predicate StartsWith(s: string, prefix: string) {
    |prefix| <= |s| && s[..|prefix|] == prefix
  }

  /** Python's `w in s` for two strings: `w` occurs somewhere in `s`. */
  predicate Contains(s: string, w: string) {
    exists i :: 0 <= i <= |s| - |w| && StartsWith(s[i..], w)
  }

  lemma ContainsPrefix(s: string, w: string)
    requires StartsWith(s, w)
    ensures Contains(s, w)
  {
    assert s[0..] == s;
  }

  lemma ContainsRight(a: string, b: string, w: string)
    requires Contains(b, w)
    ensures Contains(a + b, w)
  {
    var i :| 0 <= i <= |b| - |w| && StartsWith(b[i..], w);
    assert (a + b)[|a| + i..] == b[i..];
  }

  /** For a one-character word, `in` is plain membership of that character. */
  lemma ContainsSingle(s: string, c: char)
    ensures Contains(s, [c]) <==> c in s
  {
    if c in s {
      var k :| 0 <= k < |s| && s[k] == c;
      assert s[k..][..1] == [c];
    }
    if Contains(s, [c]) {
      var i :| 0 <= i <= |s| - 1 && StartsWith(s[i..], [c]);
      assert s[i] == s[i..][..1][0];
    }
  }

  /** Every piece of a join occurs in the joined text. */
  lemma {:induction false} JoinContainsPart(sep: string, parts: seq<string>, k: nat)
    requires k < |parts|
    ensures Contains(Join(sep, parts), parts[k])
  {
    var s := Join(sep, parts);
    if |parts| == 1 {
      ContainsPrefix(s, parts[0]);
    } else if k == 0 {
      assert s == parts[0] + (sep + Join(sep, parts[1..]));
      assert s[..|parts[0]|] == parts[0];
      ContainsPrefix(s, parts[0]);
    } else {
      JoinContainsPart(sep, parts[1..], k - 1);
      assert parts[1..][k - 1] == parts[k];
      assert s == (parts[0] + sep) + Join(sep, parts[1..]);
      ContainsRight(parts[0] + sep, Join(sep, parts[1..]), parts[k]);
    }
  }

  /** A string lacking one of the characters of `w` cannot contain `w`. */
  lemma NotContainsForLackOfChar(s: string, w: string, c: char)
    requires c in w
    requires c !in s
    ensures !Contains(s, w)
  {
    var k :| 0 <= k < |w| && w[k] == c;
    forall i | 0 <= i <= |s| - |w|
      ensures !StartsWith(s[i..], w)
    {
      assert s[i + k] != c;
      assert s[i..][..|w|][k] != w[k];
    }
  }

  /** The Python `strip()` family: drop whitespace at the front, at the back, or both. */
  function LStrip(s: string): (r: string)
    ensures |r| <= |s| && r == s[|s| - |r|..]
    ensures forall i :: 0 <= i < |s| - |r| ==> IsSpace(s[i])
    ensures |r| > 0 ==> !IsSpace(r[0])
  {
    if |s| > 0 && IsSpace(s[0]) then LStrip(s[1..]) else s
  }

  function RStrip(s: string): (r: string)
    ensures |r| <= |s| && r == s[..|r|]
    ensures forall i :: |r| <= i < |s| ==> IsSpace(s[i])
    ensures |r| > 0 ==> !IsSpace(r[|r| - 1])
  {
    if |s| > 0 && IsSpace(s[|s| - 1]) then RStrip(s[..|s| - 1]) else s
  }

  function Strip(s: string): string {
    RStrip(LStrip(s))
  }

  /** `s.strip()` is the stretch of `s` left once the whitespace on both
      sides is cut off, and it neither starts nor ends with whitespace. */
  lemma StripSlice(s: string)
    ensures |Strip(s)| > 0 ==> !IsSpace(Strip(s)[0]) && !IsSpace(Strip(s)[|Strip(s)| - 1])
    ensures |s| - |LStrip(s)| + |Strip(s)| <= |s|
    ensures Strip(s) == s[|s| - |LStrip(s)|..|s| - |LStrip(s)| + |Strip(s)|]
    ensures forall k :: 0 <= k < |s| - |LStrip(s)| ==> IsSpace(s[k])
    ensures forall k :: |s| - |LStrip(s)| + |Strip(s)| <= k < |s| ==> IsSpace(s[k])
  {
    StripEnds(s);
    StripIsSlice(s);
    StripTailCut(s);
  }

  lemma StripEnds(s: string)
    ensures |Strip(s)| > 0 ==> !IsSpace(Strip(s)[0]) && !IsSpace(Strip(s)[|Strip(s)| - 1])
  {
    var l := LStrip(s);
    var r := RStrip(l);
    if |r| > 0 {
      assert r[0] == l[0];
    }
  }

  lemma StripIsSlice(s: string)
    ensures |s| - |LStrip(s)| + |Strip(s)| <= |s|
    ensures Strip(s) == s[|s| - |LStrip(s)|..|s| - |LStrip(s)| + |Strip(s)|]
  {
    var l := LStrip(s);
    var r := RStrip(l);
    assert r == l[..|r|];
  }

  lemma StripTailCut(s: string)
    ensures forall k :: |s| - |LStrip(s)| + |Strip(s)| <= k < |s| ==> IsSpace(s[k])
  {
    var l := LStrip(s);
    var r := RStrip(l);
    var i := |s| - |l|;
    assert l == s[i..];
    SpaceTailShift(s, i, |r|);
  }

  /** Whitespace past position `m` of a suffix is whitespace in the whole. */
  lemma SpaceTailShift(s: string, i: nat, m: nat)
    requires i <= |s| && m <= |s| - i
    requires forall j :: m <= j < |s| - i ==> IsSpace(s[i..][j])
    ensures forall k :: i + m <= k < |s| ==> IsSpace(s[k])
  {
    forall k | i + m <= k < |s|
      ensures IsSpace(s[k])
    {
      assert s[k] == s[i..][k - i];
    }
  }

  /** The first character of `s` that is not whitespace, if any. */
  function FirstNonSpace(s: string): Option<char> {
    if |s| == 0 then None
    else if IsSpace(s[0]) then FirstNonSpace(s[1..])
    else Some(s[0])
  }

  /** `s.strip()` is non-empty exactly when `s` has a non-whitespace
      character, and then it begins with the first such character. */
  lemma {:induction false} StripHead(s: string)
    ensures |Strip(s)| > 0 <==> FirstNonSpace(s).Some?
    ensures |Strip(s)| > 0 ==> Strip(s)[0] == FirstNonSpace(s).value
  {
    if |s| > 0 && IsSpace(s[0]) {
      StripHead(s[1..]);
    }
  }

  /** Position of the first occurrence of `c` in `s`. */
  function IndexOf(s: string, c: char): (k: nat)
    requires c in s
    ensures k < |s| && s[k] == c && c !in s[..k]
  {
    if s[0] == c then 0 else 1 + IndexOf(s[1..], c)
  }

  /** Python's `s.split(sep)` for a one-character separator: the pieces
      between separators, always at least one. */
  function Split(s: string, sep: char): (parts: seq<string>)
    ensures |parts| >= 1
    ensures forall i :: 0 <= i < |parts| ==> sep !in parts[i]
    decreases |s|
  {
    if sep in s then
      var k := IndexOf(s, sep);
      [s[..k]] + Split(s[k + 1..], sep)
    else
      [s]
  }

  /** Python's `sep.join(parts)`. */
  function Join(sep: string, parts: seq<string>): string {
    if |parts| == 0 then ""
    else if |parts| == 1 then parts[0]
    else parts[0] + sep + Join(sep, parts[1..])
  }

  /** Joining the pieces of a split with the separator restores the text. */
  lemma {:induction false} JoinSplit(s: string, sep: char)
    ensures Join([sep], Split(s, sep)) == s
    decreases |s|
  {
    if sep in s {
      var k := IndexOf(s, sep);
      var rest := Split(s[k + 1..], sep);
      JoinSplit(s[k + 1..], sep);
      assert Split(s, sep) == [s[..k]] + rest;
      assert ([s[..k]] + rest)[1..] == rest;
      assert Join([sep], [s[..k]] + rest) == s[..k] + [sep] + Join([sep], rest);
      assert s == s[..k] + [sep] + s[k + 1..];
    }
  }

  /** Splitting a join of separator-free pieces gives the pieces back. */
  lemma {:induction false} SplitJoin(parts: seq<string>, sep: char)
    requires |parts| >= 1
    requires forall i :: 0 <= i < |parts| ==> sep !in parts[i]
    ensures Split(Join([sep], parts), sep) == parts
  {
    if |parts| > 1 {
      var s := Join([sep], parts);
      var rest := Join([sep], parts[1..]);
      assert s == parts[0] + [sep] + rest;
      assert s[|parts[0]|] == sep;
      var k := IndexOf(s, sep);
      assert forall j :: 0 <= j < |parts[0]| ==> s[j] == parts[0][j] && s[j] != sep;
      assert s[..|parts[0]|] == parts[0];
      assert k == |parts[0]|;
      assert s[k + 1..] == rest;
      SplitJoin(parts[1..], sep);
    }
  }

  function DigitChar(d: nat): (c: char)
    requires d < 10
    ensures '0' <= c <= '9'
  {
    "0123456789"[d]
  }

  predicate IsDigits(s: string) {
    forall i :: 0 <= i < |s| ==> '0' <= s[i] <= '9'
  }

  /** Python's `str(n)` for a natural number: decimal digits, no leading zero. */
  function NatToString(n: nat): (r: string)
    ensures |r| >= 1 && IsDigits(r)
    ensures r[0] == '0' ==> n == 0
  {
    if n < 10 then [DigitChar(n)] else NatToString(n / 10) + [DigitChar(n % 10)]
  }

  /** Python's `str(i)` for any integer: the decimal digits of a
      non-negative value, or a minus sign before those of its magnitude;
      either way the digits read back as the value. */
  function IntToString(i: int): (r: string)
    ensures forall k :: 0 <= k < |r| ==> r[k] == '-' || '0' <= r[k] <= '9'
    ensures i >= 0 ==> |r| >= 1 && IsDigits(r) && ParseDigits(r) == i
    ensures i < 0 ==> |r| >= 2 && r[0] == '-' && IsDigits(r[1..]) && ParseDigits(r[1..]) == -i
  {
    if i < 0 then
      SignedText(-i);
      "-" + NatToString(-i)
    else
      ParseNatToString(i);
      NatToString(i)
  }

  /** The minus sign followed by the decimal text of `n`. */
  lemma SignedText(n: nat)
    ensures var r := "-" + NatToString(n);
      |r| >= 2 && r[0] == '-' && r[1..] == NatToString(n) && ParseDigits(r[1..]) == n
  {
    ParseNatToString(n);
    var digits := NatToString(n);
    assert ("-" + digits)[1..] == digits;
  }

  /** The value of a string of decimal digits. */
  function ParseDigits(s: string): nat
    requires IsDigits(s)
  {
    if |s| == 0 then 0 else 10 * ParseDigits(s[..|s| - 1]) + (s[|s| - 1] as int - '0' as int)
  }

  /** Reading back the decimal text of `n` gives `n`. */
  lemma {:induction false} ParseNatToString(n: nat)
    ensures ParseDigits(NatToString(n)) == n
  {
    if n >= 10 {
      ParseNatToString(n / 10);
      var s := NatToString(n);
      assert s[..|s| - 1] == NatToString(n / 10);
    }
  }
}
